=== FILE: README.md ===
# Tunnel pumping optimiser: forecasters, helpers and MPC formulation in Dafny

This project models the decision core of a multi-agent controller for a wastewater
tunnel. The controller has four parts:

- **Price agent.** It reads day-ahead electricity prices from Nord Pool. When the list
  cannot be used, it forecasts prices with an autoregressive LightGBM model.
- **Inflow agent.** It forecasts the tunnel's inflow with the same autoregressive scheme.
- **Optimisation agent.** It sets up a model-predictive-control problem over the tunnel
  volume V and the pumped flow F2, then solves it with GEKKO/IPOPT.
- **Helpers.** These are the tunnel constants, the fallback level/volume geometry, the
  pump power formula, and two data-cleaning string functions.

Every quantity is an exact `real` or `int`. A time stamp is an `int` count of minutes since
1970-01-01 00:00, which was a Thursday (pandas day of week 3). Four things are parameters of
the model:

- the learned regressor: a `Trainer` from feature matrix and labels to a positional
  predictor `seq<real> -> real`;
- the optimiser: a `SolverRun` that either raises or converges to a plan;
- the calibration interpolants: `volumeOf` (`V_interp`, level to volume) and `levelOf`
  (`L_interp`, volume to level), table-based or the fallback maps. No property of them is
  assumed, except where a lemma says so: `Mpc.StartOutsideRangeInfeasible` requires
  `volumeOf` to be strictly increasing;
- the Nord Pool request: a `FetchOutcome` that either raises or returns a payload, which
  may be absent.

Modules, one per component:

| file | module | models |
|---|---|---|
| results.dfy | `Results` | `Option`, `Result` and the exceptions the code can raise |
| constants.dfy | `TunnelConstants` | `TUNNEL_CONSTANTS` |
| physics.dfy | `Physics` | fallback level/volume maps and `calculate_power` |
| charclass.dfy | `CharClass` | the character classes `str.isspace`, `\d`, `str.lower` use |
| column_names.dfy | `ColumnNames` | `clean_col_name` |
| timestamp_rewrite.dfy | `TimestampRewrite` | the timestamp regular-expression rewrite |
| calendar.dfy | `Calendar` | time stamps, hour, day of week, 15-minute forecast index |
| features.dfy | `Features` | the lag-feature training table (`shift`, `dropna`) |
| recursive.dfy | `Recursive` | the recursive forecast loop and its lag dictionary, and the forecaster the loop was meant to be |
| price_agent.dfy | `PriceAgent` | `_forecast_with_ml` and the Nord Pool post-processing |
| inflow_agent.dfy | `InflowAgent` | `forecast_inflow` |
| mpc.dfy | `Mpc` | the MPC units, variables and constraints, and `solve_mpc`'s result |

Modelling decisions:

- **Lag dictionary.** `last_values` is a `map<Key, real>`. The update loop is written
  exactly as the code runs it: it tests whether each key is present. That the lags
  collapse onto the newest prediction is therefore proved (`Recursive.UpdateLags`), not
  assumed.
- **Column order.** The regressor reads its input by position. The training columns are
  `[hour, dayofweek, lag_1, lag_4, lag_24]`, which is the frame's column order. The
  prediction row is built as `[lag_1, lag_4, lag_24, hour, dayofweek]`.
  `Recursive.PredictOrderIsRotated` shows both orders in play on the first step of a run. Whether the
  library reorders such a row by name or rejects it is outside the model.
- **Time-step reading of the ODE.** `V.dt() == F1 - F2` is read as a forward Euler step
  over `dt_h`. GEKKO's own collocation is not visible, so this is an assumption of the
  model.
- **Behaviour kept exactly as the code has it.** Three places behave otherwise than a
  reader might expect:
  - The lag update does not shift the lags, although the comment at
    agents/inflow_agent.py:114 describes a shift (see Findings).
  - The inflow agent has no fallback for a history of 24 rows or fewer: its training table
    is then empty and fitting raises (`InflowAgent.ForecastInflow`). The price agent
    repeats the last price in that case.
  - `solve_mpc` returns `None` even after a successful solve (see Findings). An empty
    inflow forecast makes it raise before its `try` block is reached.

## Model

| member | source | states |
|---|---|---|
| Physics.FallbackLevel | utils/helpers.py:71 | the fallback volume-to-level map is the inverse of a tunnel holding 350 m3 at level 0 and 10000 m3 more per metre |
| Physics.FallbackVolume | utils/helpers.py:70-71 | the fallback level-to-volume map is undone exactly by the fallback volume-to-level map |
| Physics.FallbackBijection | utils/helpers.py:70-71 | the two fallback maps are mutually inverse in both directions and both strictly increasing |
| Physics.CalculatePower | utils/helpers.py:75-99 | power in kW is 9.81/2880 x Q x (40 + 1 - L1), the source's rho*g*(Q/3600)*H/eta/1000 with H = L2 - L1 + friction |
| Physics.PowerLinearInFlow | utils/helpers.py:75-99 | power is 0 at zero flow and linear in the flow at a fixed level |
| Physics.PowerNonNegative | utils/helpers.py:85-98 | a non-negative flow with the level at most 41 m never needs negative power |
| Physics.PowerDecreasesWithLevel | utils/helpers.py:85-98 | at a positive flow a higher tunnel level needs strictly less power |
| Physics.PowerPositive | utils/helpers.py:85-98 | a positive flow with the level below 41 m always needs strictly positive power |
| CharClass.IsSpace | utils/helpers.py:40 | the characters `str.strip` removes: the ASCII controls tab to carriage return, 0x1C-0x1F, space, NEL, no-break space and the Unicode space separators |
| CharClass.LowerChar | utils/helpers.py:40 | `str.lower` on one character yields no upper-case ASCII letter, leaves every other character as it is, and never changes whether the character is white space |
| ColumnNames.CleanColName | utils/helpers.py:38-40 | a cleaned name has no ' ', ':', '.', '-', '(' and no upper-case letter, and no white space at either end |
| ColumnNames.Strip | utils/helpers.py:40 | `strip()` leaves no white space at either end, adds no character, and changes nothing when both ends are already non-blank |
| ColumnNames.StripLeft | utils/helpers.py:40 | `lstrip()` keeps a suffix that does not start with white space, drops only white space, and changes nothing when the first character is not blank |
| ColumnNames.StripRight | utils/helpers.py:40 | `rstrip()` keeps a prefix that does not end with white space, drops only white space, and changes nothing when the last character is not blank |
| ColumnNames.StripIsSlice | utils/helpers.py:40 | `strip()` returns the slice of its input between a white-space prefix (what `lstrip()` drops) and a white-space suffix |
| ColumnNames.PlainNameKept | utils/helpers.py:40 | a name without ':', '.', '-', '(' and without white space at its ends passes the stages after the underscoring unchanged |
| ColumnNames.Remove | utils/helpers.py:40 | `replace(a, '')` removes every occurrence of `a` and keeps every other character with its count |
| ColumnNames.RemoveAppend | utils/helpers.py:40 | deleting a character works piecewise over concatenation, so the kept characters stay in their original order |
| ColumnNames.RemoveSingle | utils/helpers.py:40 | a one-character string is emptied when it is the deleted character and kept otherwise |
| ColumnNames.Lower | utils/helpers.py:40 | `lower()` maps each character to its lower-case form, position by position, leaves no upper-case letter, and changes nothing without one |
| ColumnNames.Replace | utils/helpers.py:40 | `replace(a, b)` puts `b` at exactly the positions of `a` and keeps every other character in place |
| ColumnNames.BeforeFirst | utils/helpers.py:40 | `split(c)[0]` is the longest prefix without `c`: the input itself when `c` is absent, otherwise the prefix ending just before the first `c` |
| ColumnNames.CleanNamesAreFixed | utils/helpers.py:38-40 | a name is left unchanged by the cleaning exactly when it has none of the rewritten characters, no upper-case letter and no white space at either end |
| ColumnNames.CleanNameKept | utils/helpers.py:38-40 | a name without the rewritten characters, upper-case letters or white space at its ends passes every stage unchanged |
| ColumnNames.CleanColNameIdempotent | utils/helpers.py:38-40 | cleaning a cleaned name changes nothing |
| ColumnNames.TimeStampHeader | utils/helpers.py:40-43 | the header "Time stamp" becomes "time_stamp", the key the frame is then indexed by |
| TimestampRewrite.MatchAt | utils/helpers.py:25 | a match of the pattern at a position ends after it, within the cell, with six groups, and its replacement is no longer than the matched text |
| TimestampRewrite.MatchAtSound | utils/helpers.py:25 | whatever the matcher returns at a position is a match of the pattern there: one- or two-digit fields each followed by '.', a four-digit year, a non-empty white-space run, then the time fields, the last one greedy; the six groups are the text of the six digit fields |
| TimestampRewrite.MatchAtExactly | utils/helpers.py:25 | the matcher returns m at a position exactly when m is the pattern's match there: it misses no match and reports nothing else |
| TimestampRewrite.DottedStampThenText | utils/helpers.py:23-27 | a dotted stamp followed by any text that does not extend its seconds field is replaced by d.m.yyyy h:m:s, and the scan resumes right after the stamp |
| TimestampRewrite.SubFrom | utils/helpers.py:23-27 | the left-to-right substitution never lengthens the rest of the cell, and is empty exactly at the end of the cell |
| TimestampRewrite.Rewrite | utils/helpers.py:23-27 | the rewritten cell is never longer than the cell, and empty only for an empty cell |
| TimestampRewrite.DottedTimestampRewritten | utils/helpers.py:23-27 | a cell d.m.yyyy, blanks, h.m.s becomes d.m.yyyy h:m:s: the date is kept, the blank run becomes one space, the time dots become colons |
| TimestampRewrite.ColonTimestampUnchanged | utils/helpers.py:23-27 | a cell whose time part already uses ':' (no '.' after the blank) is left unchanged |
| TimestampRewrite.SubFromUnchanged | utils/helpers.py:23-27 | with no white space followed later by a '.', the left-to-right substitution copies the rest of the cell |
| Calendar.Hour | agents/price_agent.py:82 | the hour is in 0..23 and counts the whole hours elapsed since midnight of the stamp's day |
| Calendar.DayOfWeek | agents/price_agent.py:83 | the day of week is in 0..6 |
| Calendar.CalendarPeriods | agents/price_agent.py:82-83 | the hour repeats daily, the day of week advances by one a day, repeats weekly and is the same for every stamp of a day, and 1970-01-01 00:00 is hour 0 of day 3 |
| Calendar.DayOfWeekWithinDay | agents/price_agent.py:83 | every stamp has the day of week of its day's midnight |
| Calendar.StepsAfter | agents/price_agent.py:108 | n stamps, the first 15 minutes after the last one, each 15 minutes after the one before |
| Features.RawTable | agents/price_agent.py:81-86 | adding the calendar and lag columns keeps one row per history row |
| Features.RawTableDefined | agents/price_agent.py:81-86 | every table row keeps its stamp and target, and its three shifted lags are all defined exactly from position 24 on |
| Features.RawRowAt | agents/price_agent.py:81-86 | the table row at position i >= 24 holds the stamp's hour and day of week and the lags target[i-1], target[i-4], target[i-24] |
| Features.DropNa | agents/price_agent.py:87 | `dropna` never adds rows, and keeps them all exactly when every row has its three lags defined |
| Features.DropNaAppend | agents/price_agent.py:87 | `dropna` works row by row: it distributes over concatenation, so the kept rows stay in order |
| Features.DropNaSingle | agents/price_agent.py:87 | a single row is kept, with its lags filled in, exactly when its three lags are defined |
| Features.DropNaKeepsDefined | agents/price_agent.py:87 | `dropna` removes no row whose three lags are all defined, and keeps those rows in order |
| Features.TableRows | agents/price_agent.py:79-87 | `dropna` on the lag table of a history of n rows leaves the rows of positions 24 onwards, none when n <= 24 |
| Features.TrainingRows | agents/price_agent.py:79-87 | the training table is empty for a history of at most 24 rows, and otherwise equals the reference rows: row j is position j + 24 with lag k = target[j + 24 - k] and label target[j + 24] |
| Recursive.UpdateLags | agents/price_agent.py:124-133 | after the update, lag_1, lag_4 and lag_24 all hold the new prediction; the key set, hour and day of week are unchanged |
| Features.TrainVector | agents/price_agent.py:92-94 | the training vector holds, at position i, the row's value in the i-th `features` column: hour, dayofweek, lag_1, lag_4, lag_24 |
| Recursive.InitialState | agents/price_agent.py:112 | `last_values` has exactly the training columns as keys, each holding the last training row's value in that column |
| Recursive.PredictVector | agents/price_agent.py:116-118 | the row handed to `predict` holds the state's lag_1, lag_4, lag_24 and then the forecast stamp's hour and day of week |
| Recursive.Rollout | agents/price_agent.py:114-133 | one step per forecast time stamp; each step records the regressor's value on the row it was fed; the first row is the initial lags plus the calendar of the first stamp |
| Recursive.FeedbackCollapse | agents/price_agent.py:114-133 | every row after the first carries the previous prediction in all three lag positions, plus the hour and day of week of its own stamp |
| Recursive.PredictOrderIsRotated | agents/price_agent.py:92-118 | the first row a run feeds the regressor starts with the last training row's three lags, where training had hour and day of week, and ends with the forecast stamp's calendar columns |
| Recursive.Run | agents/price_agent.py:105-118 | the forecast has n steps at last + 15(i + 1) minutes; step 0 is fed target[n-2], target[n-5] and target[n-25], the last row's own lags |
| Recursive.RunFeedback | agents/inflow_agent.py:102-123 | in the agents' loop, step i >= 1 is fed prediction i - 1 as every lag |
| Recursive.IntendedRun | agents/inflow_agent.py:102-123 | the corrected forecaster has n steps at last + 15(i + 1) minutes, each the trained regressor's value on the row it is fed |
| Recursive.IntendedRollout | agents/inflow_agent.py:102-123 | the corrected loop takes one step per forecast stamp, in order, and each step records the regressor's value on the row it was fed |
| Recursive.IntendedLagsAreTrueLags | agents/inflow_agent.py:112-123 | in the corrected loop, step i reads lag k from the history extended by the predictions, at offset k |
| Recursive.IntendedRunTrueLags | agents/inflow_agent.py:112-123 | the corrected forecaster reads true lags, and step 0 sees the newest observation as its 1-step lag |
| Recursive.RunFirstLagIsStale | agents/price_agent.py:112-116 | when the last two observations differ, the loop as written feeds step 0 a different 1-step lag than the corrected loop |
| PriceAgent.ForecastWithMl | agents/price_agent.py:89-135 | fails only on an empty history; otherwise n values at last + 15(i + 1) minutes: the last price repeated when there is no training row, the raw unclamped predictions otherwise |
| PriceAgent.MlForecastInputs | agents/price_agent.py:112-133 | step 0 of the price forecast is fed the last history row's lags; step i >= 1 is fed forecast value i - 1 as all three lags; each value is the regressor's output on its row |
| PriceAgent.AreaValues | agents/price_agent.py:46-50 | the area's list is read exactly when the fetch returned a payload with `areas` holding the configured area with a `values` list, and is that list |
| PriceAgent.ToKwh | agents/price_agent.py:56-58 | a converted point keeps the entry's start, and 1000 times its value is the entry's EUR/MWh price |
| PriceAgent.Scaled | agents/price_agent.py:54-59 | every entry is converted, in order |
| PriceAgent.SortByTime | agents/price_agent.py:62 | the sorted list is ordered by time and is a permutation of its input |
| PriceAgent.Earliest | agents/price_agent.py:62-65 | the n points kept are time-ordered, drawn from the list, and no point left out is earlier than a kept one |
| PriceAgent.LiveQuote | agents/price_agent.py:46-67 | a usable list exists exactly when the area's values can be read and number at least max(1, n); then the result is n points, time-ordered, drawn from the values divided by 1000, and no point left out is earlier than a kept one |
| PriceAgent.FetchNordPoolPrices | agents/price_agent.py:37-75 | the live list when usable, otherwise exactly the ML forecast; an error only when that forecast has no history; always n values on success |
| PriceAgent.FailedFetchFallsBack | agents/price_agent.py:46-47 | a raising fetch, an empty payload, a payload without areas or without the area gives the ML forecast |
| PriceAgent.LiveListServed | agents/price_agent.py:50-71 | a readable list of at least n entries is served: n time-ordered points, each an entry's value / 1000 at its start |
| InflowAgent.AtLeastZero | agents/inflow_agent.py:110 | max(0, x) is non-negative, x itself when x >= 0 and 0 otherwise |
| InflowAgent.ForecastInflow | agents/inflow_agent.py:51-125 | fails exactly when the history has at most 24 rows; otherwise n values at last + 15(i + 1) minutes, each max(0, raw prediction) and never negative |
| InflowAgent.InflowFeedsRawPrediction | agents/inflow_agent.py:99-123 | step 0 is fed the last row's lags; from step 1 the lags are the raw previous prediction, which is negative whenever a 0 was reported instead |
| Mpc.Linspace | agents/optimization_agent.py:21 | num points from start to stop, evenly spaced by (stop - start) / (num - 1) |
| Mpc.TimeGrid | agents/optimization_agent.py:12-21 | the grid has H points and point k is k x dt_h, with dt_h = 15/60 |
| Mpc.InflowPerHour | agents/optimization_agent.py:38 | F1_h x dt_h is the per-step inflow volume |
| Mpc.LinearLevel | agents/optimization_agent.py:56 | the in-solve level map sends V_min to 0.5 and V_max to 30 |
| Mpc.LinearLevelIncreasing | agents/optimization_agent.py:56 | the level map is strictly increasing when V_max > V_min |
| Mpc.TerminalFixMeansEmpty | agents/optimization_agent.py:56-71 | fixing the mapped level to 0.5 is equivalent to V = V_min |
| Mpc.FallbackLevelMapAgrees | agents/optimization_agent.py:56 | under the fallback geometry the in-solve level map equals the fallback volume-to-level map for every V |
| Mpc.Formulate | agents/optimization_agent.py:7-38 | V_start, V_min, V_max are the geometry at the current level, 0.5 and 30; F1 x dt_h equals the given inflow |
| Mpc.Dynamics | agents/optimization_agent.py:64 | the predicate holds when every series has one value per grid point and each step is V[k+1] = V[k] + dt_h (F1[k] - F2[k]); its closed form is Mpc.VolumeAfter |
| Mpc.VolumeAfter | agents/optimization_agent.py:64 | under the dynamics, V[m] is V[0] plus dt_h times the net inflow over the first m steps |
| Mpc.Admissible | agents/optimization_agent.py:32-71 | a plan meeting every declared bound, the start value, the dynamics and the terminal fix of L1 to 0.5 ends at V_min, with V_min < V_max |
| Mpc.AdmissiblePlanIsSafe | agents/optimization_agent.py:32-71 | an admissible plan has V_min < V_max, ends at V_min, keeps the mapped level in [0.5, 30] and needs positive power at every point |
| Mpc.MassBalance | agents/optimization_agent.py:64 | V[H-1] - V[0] = dt_h x the sum over k < H-1 of (F1[k] - F2[k]) |
| Mpc.BalancedPumpingHoldsVolume | agents/optimization_agent.py:64 | pumping exactly the inflow keeps V at its start value at every point |
| Mpc.DrawdownInfeasible | agents/optimization_agent.py:32-71 | no plan is admissible when V_start - V_min exceeds dt_h x the sum over k < H-1 of (10000 - F1[k]) |
| Mpc.StartOutsideRangeInfeasible | agents/optimization_agent.py:32-45 | under a strictly increasing geometry, a current level outside [0.5, 30] leaves no admissible plan |
| Mpc.TryBlock | agents/optimization_agent.py:83-98 | a raising solve, a zero volume span (the level map at line 56 divides by it) and an unbound index name all raise; a returned frame is indexed by the given index and has the six columns the source builds: L_interp of the plan's volumes, the volumes, the plan's pumped flow F2, the power `calculate_power` gives for that flow at the linear level, the prices, and F1_h |
| Mpc.SolveMpc | agents/optimization_agent.py:38-102 | an empty inflow forecast raises IndexError at `F1_h[0]`, before the try block; any other call returns None, whatever the solver does |
| Mpc.SolveMpcIntended | agents/optimization_agent.py:38-102 | with the index name bound: an empty forecast still raises; otherwise None after a raising solve, and a returned frame lies over the given index with the plan's volumes |
| Mpc.IntendedScheduleFollowsPlan | agents/optimization_agent.py:32-98 | for a converged admissible plan the corrected method returns its frame: volumes within bounds and ending at V_min, the plan's pumped flow within [100, 10000], positive power, with the prices and F1_h as columns |

## Left out

- Network I/O: the Nord Pool `elspot` fetch and the open-meteo request are inputs to the
  model. The Nord Pool fetch is a `FetchOutcome`; `fetch_weather_forecast` is not part of
  this model.
- Weather columns in the inflow forecast: `forecast_inflow` copies them into the
  prediction frame, but the loop reads only `hour` and `dayofweek` from that frame
  (agents/inflow_agent.py:105-106). The model therefore has no weather input at all, which
  is how it represents that the forecast cannot depend on the weather.
- LightGBM training and prediction are uninterpreted. Nothing is claimed about fitted
  values or determinism beyond what a function parameter gives.
- The GEKKO/IPOPT solve is left out: collocation, the `DCOST` smoothing penalty, the
  integral objective, the IMODE, SOLVER and CV_TYPE options, and the initial guess F2 =
  F1_h[0] (only its IndexError on an empty forecast is modelled). A solve is a `SolverRun` input. Optimality of the plan is not modelled, only its
  admissibility.
- The scipy `interp1d` calibration table is a function parameter (`volumeOf`, `levelOf`).
  The table's contents are not visible.
- IEEE floating-point rounding: all arithmetic is exact.
- Time zones: `astimezone`, `tz_localize(None)` and DST are left out. An entry's start is
  taken to be already in local wall-clock minutes.
- pandas parsing in `load_and_clean_data` is left out: `read_csv`, `to_datetime`,
  `to_numeric`, and the row-dropping `dropna` over all columns. The history is a series
  of the target column with no missing values. No other column of it is taken to contain
  "lag" in its name.
- `main.py`'s orchestration and all printing.
- Non-ASCII text: `CharClass` models `str.lower` and `\d` on ASCII only. `str.isspace` is
  modelled on its full code-point set.
- A negative `n_steps` is left out (the step count is a `nat`). So is the key error when
  the target column is missing.
- PriceAgent.SortByTime: it is stable, while pandas' `sort_index` does not promise an
  order among equal time stamps. Its contract states only order and permutation, which
  any sort satisfies.
- PriceAgent.Entry: an entry whose `value` is missing or not a number is left out.
- Mpc.SolveMpcIntended: the model hands the forecast index in as a parameter, because how
  the corrected method would obtain it is not fixed by the code.

## Findings

| source | as written | input that shows it | evidently intended | confidence | as-written member | corrected member |
|---|---|---|---|---|---|---|
| agents/price_agent.py:124-133 and agents/inflow_agent.py:113-123 | the lag update copies `lag_{k-1}` only when that key exists. The keys `lag_23` and `lag_3` never exist, so lag_24, lag_4 and lag_1 all become the newest prediction | any history of at least 25 rows with n_steps >= 2: step 1 is fed prediction 0 as its 4-step and 24-step lags, not target[n-3] and target[n-23] | each lag k holds the value k steps back, shifting as the comment at agents/inflow_agent.py:114 describes | high, not executed | Recursive.Run, shown by Recursive.RunFeedback | Recursive.IntendedRun, proved by Recursive.IntendedRunTrueLags |
| agents/price_agent.py:112-116 and agents/inflow_agent.py:99-104 | the initial lag state is the last training row's own lags. The first forecast step is therefore fed target[n-2] as its 1-step lag | any history of at least 25 rows whose last two values differ, n_steps >= 1 | the first step is fed the newest observation target[n-1] as its 1-step lag | high, not executed | Recursive.Run, shown by Recursive.RunFirstLagIsStale | Recursive.IntendedRun, proved by Recursive.IntendedRunTrueLags |
| agents/optimization_agent.py:96 | the result frame is indexed by `inflow_forecast`, a name not bound in `solve_mpc`. The NameError is caught, so the method returns None | any call with a non-empty inflow forecast whose solve succeeds | a frame of the solved trajectory over the forecast's time index | high, not executed | Mpc.SolveMpc | Mpc.SolveMpcIntended, proved by Mpc.IntendedScheduleFollowsPlan |

=== FILE: calendar.dfy ===
/** Time stamps, series and calendar features shared by the two forecasting agents. */
module Calendar {
  import opened TunnelConstants

  /** One row of a time-indexed series: a time stamp in minutes since
      1970-01-01 00:00 and the value observed or forecast for it. */
  datatype Point = Point(time: int, value: real)

  type Series = seq<Point>

  /** Minutes in a day. */
  const MinutesPerDay: int := 1440

  /** `index.hour`: the whole hours elapsed since midnight of the stamp's day. */
  function Hour(t: int): (h: int)
    ensures 0 <= h < 24
    ensures 60 * h <= t % MinutesPerDay < 60 * (h + 1)
  {
    HoursOfDay(t);
    (t / 60) % 24
  }

  /** Whole hours modulo a day are the whole hours of the minutes into the day. */
  lemma HoursOfDay(t: int)
    ensures (t / 60) % 24 == (t % MinutesPerDay) / 60
  {
    var q := t / MinutesPerDay;
    var r := t % MinutesPerDay;
    assert t == 1440 * q + r && 0 <= r < 1440;
    assert t / 60 == 24 * q + r / 60;
    assert 0 <= r / 60 < 24;
  }

  /** `index.dayofweek`, Monday being 0; 1970-01-01 was a Thursday. */
  function DayOfWeek(t: int): (d: int)
    ensures 0 <= d < 7
  {
    (t / MinutesPerDay + 3) % 7
  }

  /** The calendar features repeat daily and weekly: the hour depends only on the time of
      day, the day of week advances by one each day, and the epoch fell on day 3 (Thursday). */
  lemma CalendarPeriods(t: int)
    ensures Hour(t + MinutesPerDay) == Hour(t)
    ensures DayOfWeek(t + MinutesPerDay) == (DayOfWeek(t) + 1) % 7
    ensures DayOfWeek(t + 7 * MinutesPerDay) == DayOfWeek(t)
    ensures DayOfWeek(0) == 3 && Hour(0) == 0
    ensures DayOfWeek(t) == DayOfWeek(t - t % MinutesPerDay)
  {
    DayOfWeekWithinDay(t);
    HourDaily(t);
    DayOfWeekDaily(t);
    DayOfWeekWeekly(t);
  }

  lemma HourDaily(t: int)
    ensures Hour(t + MinutesPerDay) == Hour(t)
  {
    assert (t + MinutesPerDay) / 60 == t / 60 + 24;
  }

  lemma DayOfWeekDaily(t: int)
    ensures DayOfWeek(t + MinutesPerDay) == (DayOfWeek(t) + 1) % 7
  {
    var q := t / MinutesPerDay;
    assert (t + MinutesPerDay) / MinutesPerDay == q + 1;
    assert (q + 1 + 3) % 7 == ((q + 3) % 7 + 1) % 7;
  }

  /** Every stamp of a day has the day of week of that day's midnight. */
  lemma DayOfWeekWithinDay(t: int)
    ensures DayOfWeek(t) == DayOfWeek(t - t % MinutesPerDay)
  {
    var q := t / MinutesPerDay;
    assert t - t % MinutesPerDay == MinutesPerDay * q;
    assert (MinutesPerDay * q) / MinutesPerDay == q;
  }

  lemma DayOfWeekWeekly(t: int)
    ensures DayOfWeek(t + 7 * MinutesPerDay) == DayOfWeek(t)
  {
    assert (t + 7 * MinutesPerDay) / MinutesPerDay == t / MinutesPerDay + 7;
  }

  /** `pd.date_range(start=last + 15 minutes, periods=n, freq='15min')`: n stamps, the first
      one step after `last`, each one step after the one before. */
  function StepsAfter(last: int, n: nat): (ts: seq<int>)
    ensures |ts| == n
    ensures n > 0 ==> ts[0] == last + TimestepMinutes
    ensures forall i :: 0 < i < n ==> ts[i] - ts[i - 1] == TimestepMinutes
    ensures forall i :: 0 <= i < n ==> ts[i] > last
  {
    seq(n, i requires 0 <= i < n => last + TimestepMinutes * (i + 1))
  }

  /** The target column of a series. */
  function Values(h: Series): seq<real>
  {
    seq(|h|, i requires 0 <= i < |h| => h[i].value)
  }
}

=== FILE: charclass.dfy ===
/** Character classes used by Python's `str.lower`, `str.strip` and the regex classes `\d`, `\s`. */
module CharClass {

  /** Python's `str.isspace` (and the regex class `\s` on text): the ASCII controls
      tab to carriage return, the separators 0x1C-0x1F, space, NEL, no-break space
      and the Unicode space separators. */
  predicate IsSpace(c: char)
  {
    var n := c as int;
    || 9 <= n <= 13
    || 28 <= n <= 32
    || n == 0x85 || n == 0xA0 || n == 0x1680
    || 0x2000 <= n <= 0x200A
    || n == 0x2028 || n == 0x2029 || n == 0x202F || n == 0x205F || n == 0x3000
  }

  /** An ASCII decimal digit. */
  predicate IsDigit(c: char)
  {
    '0' <= c <= '9'
  }

  /** An ASCII upper-case letter. */
  predicate IsUpper(c: char)
  {
    'A' <= c <= 'Z'
  }

  /** ASCII lower-casing of one character. */
  function LowerChar(c: char): (r: char)
    ensures !IsUpper(r)
    ensures IsSpace(r) <==> IsSpace(c)
    ensures !IsUpper(c) ==> r == c
  {
    if IsUpper(c) then (c as int + 32) as char else c
  }
}

=== FILE: column_names.dfy ===
/** `clean_col_name` of `load_and_clean_data` (utils/helpers.py). */
module ColumnNames {
  import opened CharClass

  /** `str.lower()` on ASCII letters. */
  function Lower(s: string): (r: string)
    ensures |r| == |s|
    ensures forall i :: 0 <= i < |s| ==> r[i] == LowerChar(s[i])
    ensures forall c :: c in r ==> !IsUpper(c)
    ensures (forall c :: c in s ==> !IsUpper(c)) ==> r == s
  {
    seq(|s|, i requires 0 <= i < |s| => LowerChar(s[i]))
  }

  /** `str.replace(a, b)` for single characters. */
  function Replace(s: string, a: char, b: char): (r: string)
    ensures |r| == |s|
    ensures forall i :: 0 <= i < |s| && s[i] == a ==> r[i] == b
    ensures forall i :: 0 <= i < |s| && s[i] != a ==> r[i] == s[i]
    ensures forall c :: c in r ==> c == b || (c in s && c != a)
    ensures a !in s ==> r == s
  {
    seq(|s|, i requires 0 <= i < |s| => if s[i] == a then b else s[i])
  }

  /** `str.replace(a, '')`: every occurrence of `a` deleted. */
  function Remove(s: string, a: char): (r: string)
    ensures forall c :: c in r ==> c in s && c != a
    ensures a !in s ==> r == s
    ensures multiset(r) == multiset(s)[a := 0]
  {
    if s == [] then []
    else
      assert s == [s[0]] + s[1..];
      (if s[0] == a then [] else [s[0]]) + Remove(s[1..], a)
  }

  /** Deleting works piecewise and keeps the order: the deletion from a concatenation is
      the concatenation of the deletions. */
  lemma {:induction false} RemoveAppend(s: string, t: string, a: char)
    ensures Remove(s + t, a) == Remove(s, a) + Remove(t, a)
  {
    if s == [] {
      assert s + t == t;
    } else {
      var u := s + t;
      assert u[0] == s[0] && u[1..] == s[1..] + t;
      RemoveStep(u, a);
      RemoveStep(s, a);
      RemoveAppend(s[1..], t, a);
      var head: string := if s[0] == a then [] else [s[0]];
      ConcatAssoc(head, Remove(s[1..], a), Remove(t, a));
    }
  }

  /** Concatenation is associative. */
  lemma ConcatAssoc(x: string, y: string, z: string)
    ensures x + (y + z) == (x + y) + z
  {
  }

  /** One step of the deletion: the first character, unless it is `a`, then the rest. */
  lemma RemoveStep(s: string, a: char)
    requires s != []
    ensures Remove(s, a) == (if s[0] == a then [] else [s[0]]) + Remove(s[1..], a)
  {
  }

  /** A single character is kept unless it is the deleted one. */
  lemma RemoveSingle(x: char, a: char)
    ensures Remove([x], a) == if x == a then [] else [x]
  {
    assert [x][1..] == [];
  }

  /** `str.split(c)[0]`: everything before the first `c`. */
  function BeforeFirst(s: string, c: char): (r: string)
    ensures r <= s
    ensures forall x :: x in r ==> x in s && x != c
    ensures c !in s ==> r == s
    ensures |r| < |s| ==> s[|r|] == c
  {
    if s == [] || s[0] == c then [] else [s[0]] + BeforeFirst(s[1..], c)
  }

  /** Every character is white space. */
  predicate AllSpace(x: string)
  {
    forall k :: 0 <= k < |x| ==> IsSpace(x[k])
  }

  /** The position of the first character at or after i that is not white space, or |s|
      when there is none. */
  function FirstKept(s: string, i: nat): (j: nat)
    requires i <= |s|
    ensures i <= j <= |s|
    ensures forall k :: i <= k < j ==> IsSpace(s[k])
    ensures j < |s| ==> !IsSpace(s[j])
    decreases |s| - i
  {
    if i < |s| && IsSpace(s[i]) then FirstKept(s, i + 1) else i
  }

  /** One past the last character before position j that is not white space, or 0 when
      there is none. */
  function LastKept(s: string, j: nat): (e: nat)
    requires j <= |s|
    ensures e <= j
    ensures forall k :: e <= k < j ==> IsSpace(s[k])
    ensures e > 0 ==> !IsSpace(s[e - 1])
  {
    if j > 0 && IsSpace(s[j - 1]) then LastKept(s, j - 1) else j
  }

  /** `str.lstrip()`: drops a white-space prefix and stops at the first other character. */
  function StripLeft(s: string): (r: string)
    ensures |r| <= |s| && r == s[|s| - |r|..]
    ensures AllSpace(s[..|s| - |r|])
    ensures |r| > 0 ==> !IsSpace(r[0])
    ensures (|s| > 0 ==> !IsSpace(s[0])) ==> r == s
  {
    var j := FirstKept(s, 0);
    assert AllSpace(s[..j]) by {
      forall k | 0 <= k < j
        ensures IsSpace(s[..j][k])
      {
        assert s[..j][k] == s[k];
      }
    }
    s[j..]
  }

  /** `str.rstrip()`: drops a white-space suffix and stops at the last other character. */
  function StripRight(s: string): (r: string)
    ensures r <= s
    ensures AllSpace(s[|r|..])
    ensures |r| > 0 ==> !IsSpace(r[|r| - 1])
    ensures (|s| > 0 ==> !IsSpace(s[|s| - 1])) ==> r == s
  {
    var e := LastKept(s, |s|);
    assert AllSpace(s[e..]) by {
      forall k | 0 <= k < |s| - e
        ensures IsSpace(s[e..][k])
      {
        assert s[e..][k] == s[e + k];
      }
    }
    s[..e]
  }

  /** `str.strip()`: no white space is left at either end, nothing else changes. */
  function Strip(s: string): (r: string)
    ensures forall c :: c in r ==> c in s
    ensures |r| > 0 ==> !IsSpace(r[0]) && !IsSpace(r[|r| - 1])
    ensures (|s| > 0 ==> !IsSpace(s[0]) && !IsSpace(s[|s| - 1])) ==> r == s
  {
    var left := StripLeft(s);
    var r := StripRight(left);
    PrefixOfSuffix(s, |s| - |left|, r);
    SliceChars(s, |s| - |left|, |s| - |left| + |r|);
    r
  }

  /** A slice holds only characters of the whole string. */
  lemma SliceChars(s: string, a: nat, b: nat)
    requires a <= b <= |s|
    ensures forall c :: c in s[a..b] ==> c in s
  {
    forall c | c in s[a..b]
      ensures c in s
    {
      var i :| 0 <= i < b - a && s[a..b][i] == c;
      assert s[a + i] == c;
    }
  }

  /** What `strip()` removes is a white-space prefix, the a characters `lstrip()` drops, and
      a white-space suffix: the result is the slice of the input between them. */
  lemma StripIsSlice(s: string, a: nat)
    requires a == |s| - |StripLeft(s)|
    ensures a + |Strip(s)| <= |s| && Strip(s) == s[a..a + |Strip(s)|]
    ensures AllSpace(s[..a]) && AllSpace(s[a + |Strip(s)|..])
  {
    var left := StripLeft(s);
    var r := StripRight(left);
    assert Strip(s) == r;
    PrefixOfSuffix(s, a, r);
  }

  /** A prefix r of the suffix of s from a is the slice of s from a, and what follows it in
      that suffix is what follows it in s. */
  lemma PrefixOfSuffix(s: string, a: nat, r: string)
    requires a <= |s| && r <= s[a..]
    ensures a + |r| <= |s| && r == s[a..a + |r|] && s[a + |r|..] == s[a..][|r|..]
  {
  }

  /** The characters the cleaning removes or rewrites. */
  predicate Forbidden(c: char)
  {
    c == ' ' || c == ':' || c == '.' || c == '-' || c == '('
  }

  /** A column header turned into a lower-case identifier-like key. */
  function CleanColName(col: string): (name: string)
    ensures forall c :: c in name ==> !Forbidden(c) && !IsUpper(c)
    ensures |name| > 0 ==> !IsSpace(name[0]) && !IsSpace(name[|name| - 1])
  {
    var lowered := Lower(col);
    var underscored := Replace(lowered, ' ', '_');
    assert forall c :: c in underscored ==> c != ' ' && !IsUpper(c);
    var noColons := Remove(underscored, ':');
    assert forall c :: c in noColons ==> c != ' ' && c != ':' && !IsUpper(c);
    var noDots := Remove(noColons, '.');
    assert forall c :: c in noDots ==> c != ' ' && c != ':' && c != '.' && !IsUpper(c);
    var dashed := Replace(noDots, '-', '_');
    assert forall c :: c in dashed ==> c != ' ' && c != ':' && c != '.' && c != '-' && !IsUpper(c);
    var head := BeforeFirst(dashed, '(');
    assert forall c :: c in head ==> !Forbidden(c) && !IsUpper(c);
    Strip(head)
  }

  /** Cleaning an already clean name changes nothing. */
  lemma CleanColNameIdempotent(col: string)
    ensures CleanColName(CleanColName(col)) == CleanColName(col)
  {
    var n := CleanColName(col);
    assert Lower(n) == n;
    assert ' ' !in n && ':' !in n && '.' !in n && '-' !in n && '(' !in n;
  }

  /** The first two cleaning stages on the timestamp header, each checked on its own. */
  lemma TimeStampLowered()
    ensures Lower("Time stamp") == "time stamp"
  {
  }

  lemma TimeStampUnderscored()
    ensures Replace("time stamp", ' ', '_') == "time_stamp"
  {
  }

  /** The key "time_stamp" holds none of the removed characters and starts and ends with
      a letter. */
  lemma TimeStampPlain()
    ensures var n: string := "time_stamp";
            ':' !in n && '.' !in n && '-' !in n && '(' !in n && !IsSpace(n[0]) && !IsSpace(n[|n| - 1])
  {
    var n: string := "time_stamp";
    assert |n| == 10 && n[0] == 't' && n[9] == 'p';
  }

  /** A name that holds none of the removed characters and has no white space at either
      end passes the stages after the underscoring unchanged. */
  lemma PlainNameKept(n: string)
    requires ':' !in n && '.' !in n && '-' !in n && '(' !in n
    requires |n| > 0 ==> !IsSpace(n[0]) && !IsSpace(n[|n| - 1])
    ensures Strip(BeforeFirst(Replace(Remove(Remove(n, ':'), '.'), '-', '_'), '(')) == n
  {
    assert Remove(n, ':') == n;
    assert Remove(n, '.') == n;
    assert Replace(n, '-', '_') == n;
    assert BeforeFirst(n, '(') == n;
  }

  /** A name is left unchanged by the cleaning exactly when it is already clean: free of the
      rewritten characters and of upper-case letters, with no white space at either end. */
  lemma CleanNamesAreFixed(n: string)
    ensures CleanColName(n) == n <==>
              (forall c :: c in n ==> !Forbidden(c) && !IsUpper(c))
              && (|n| > 0 ==> !IsSpace(n[0]) && !IsSpace(n[|n| - 1]))
  {
    if (forall c :: c in n ==> !Forbidden(c) && !IsUpper(c)) && (|n| > 0 ==> !IsSpace(n[0]) && !IsSpace(n[|n| - 1])) {
      CleanNameKept(n);
    }
  }

  /** A clean name passes every stage of the cleaning unchanged. */
  lemma CleanNameKept(n: string)
    requires forall c :: c in n ==> !Forbidden(c) && !IsUpper(c)
    requires |n| > 0 ==> !IsSpace(n[0]) && !IsSpace(n[|n| - 1])
    ensures CleanColName(n) == n
  {
    assert Lower(n) == n;
    assert Replace(n, ' ', '_') == n;
    PlainNameKept(n);
  }

  /** The timestamp header becomes the key the loader indexes by. */
  lemma TimeStampHeader()
    ensures CleanColName("Time stamp") == "time_stamp"
  {
    var n: string := "time_stamp";
    assert CleanColName("Time stamp") == Strip(BeforeFirst(Replace(Remove(Remove(n, ':'), '.'), '-', '_'), '(')) by {
      TimeStampLowered();
      TimeStampUnderscored();
    }
    assert Strip(BeforeFirst(Replace(Remove(Remove(n, ':'), '.'), '-', '_'), '(')) == n by {
      TimeStampPlain();
      PlainNameKept(n);
    }
  }
}

=== FILE: constants.dfy ===
/** The tunnel's configured constants (`TUNNEL_CONSTANTS` in utils/helpers.py). */
module TunnelConstants {

  /** Lowest safe tunnel level, in metres. */
  const L1Min: real := 0.5

  /** Highest operating tunnel level, in metres. */
  const L1Max: real := 30.0

  /** Water level at the treatment plant the pumps lift to, in metres. */
  const L2Level: real := 40.0

  /** Length of one control and forecast step, in minutes. */
  const TimestepMinutes: int := 15

  /** Number of steps per hour, used to turn m3 per step into m3/h. */
  const TimeStepsPerHour: int := 4

  /** The Nord Pool bidding area whose prices are requested. */
  const NordPoolArea: string := "FI"
}

=== FILE: features.dfy ===
/** The lag-feature training table both agents build from the history: `_create_features`
    in agents/price_agent.py and the first block of `forecast_inflow` in
    agents/inflow_agent.py. */
module Features {
  import opened Results
  import opened Calendar

  /** The largest lag; the first MaxLag rows have an undefined lag and are dropped. */
  const MaxLag: nat := 24

  /** `series.shift(k)` at row i: the value k rows earlier, undefined (NaN) for the first
      k rows. */
  function ShiftAt(h: Series, i: nat, k: nat): Option<real>
    requires i < |h|
  {
    if i < k then None else Some(h[i - k].value)
  }

  /** A history row with its calendar features and lags, before `dropna`. */
  datatype RawRow = RawRow(time: int, hour: int, dayOfWeek: int,
                           lag1: Option<real>, lag4: Option<real>, lag24: Option<real>,
                           target: real)

  /** A row of the training table. */
  datatype TrainingRow = TrainingRow(time: int, hour: int, dayOfWeek: int,
                                     lag1: real, lag4: real, lag24: real, target: real)

  /** The history with hour, day of week and the target shifted by 1, 4 and 24 rows. */
  function RawTable(h: Series): (t: seq<RawRow>)
    ensures |t| == |h|
  {
    seq(|h|, i requires 0 <= i < |h| =>
      RawRow(h[i].time, Hour(h[i].time), DayOfWeek(h[i].time),
             ShiftAt(h, i, 1), ShiftAt(h, i, 4), ShiftAt(h, i, MaxLag), h[i].value))
  }

  /** `dropna()`: keep the rows whose lags are all defined. */
  function DropNa(rows: seq<RawRow>): (r: seq<TrainingRow>)
    ensures |r| <= |rows|
    ensures |r| == |rows| <==> forall i :: 0 <= i < |rows| ==> Defined(rows[i])
  {
    if rows == [] then []
    else
      var r := rows[0];
      if r.lag1.Some? && r.lag4.Some? && r.lag24.Some? then
        [TrainingRow(r.time, r.hour, r.dayOfWeek, r.lag1.value, r.lag4.value, r.lag24.value, r.target)]
        + DropNa(rows[1..])
      else DropNa(rows[1..])
  }

  /** The training table: a history of at most 24 rows gives none; a longer one gives its
      positions 24 onwards, as the reference definition `RowsFrom` builds them. */
  function TrainingRows(h: Series): (rows: seq<TrainingRow>)
    ensures |h| <= MaxLag ==> rows == []
    ensures |h| > MaxLag ==> rows == RowsFrom(h, MaxLag)
  {
    TableRows(h);
    DropNa(RawTable(h))
  }

  /** Reference definition: the row built for history position i >= 24. */
  function RowAt(h: Series, i: nat): TrainingRow
    requires MaxLag <= i < |h|
  {
    TrainingRow(h[i].time, Hour(h[i].time), DayOfWeek(h[i].time),
                h[i - 1].value, h[i - 4].value, h[i - 24].value, h[i].value)
  }

  /** Reference definition: the rows for positions `from` to the end of the history. */
  function RowsFrom(h: Series, from: nat): (rows: seq<TrainingRow>)
    requires MaxLag <= from <= |h|
    ensures |rows| == |h| - from
  {
    seq(|h| - from, j requires 0 <= j < |h| - from => RowAt(h, from + j))
  }

  /** A row whose three lags are all defined. */
  predicate Defined(r: RawRow)
  {
    r.lag1.Some? && r.lag4.Some? && r.lag24.Some?
  }

  /** The training row a defined raw row becomes. */
  function Complete(r: RawRow): (t: TrainingRow)
    requires Defined(r)
  {
    TrainingRow(r.time, r.hour, r.dayOfWeek, r.lag1.value, r.lag4.value, r.lag24.value, r.target)
  }

  /** On rows whose lags are all defined, `dropna` keeps every row, in order. */
  lemma {:induction false} DropNaKeepsDefined(rows: seq<RawRow>)
    requires forall i :: 0 <= i < |rows| ==> Defined(rows[i])
    ensures |DropNa(rows)| == |rows|
    ensures forall i :: 0 <= i < |rows| ==> DropNa(rows)[i] == Complete(rows[i])
  {
    if rows != [] {
      DropNaKeepsDefined(rows[1..]);
      assert DropNa(rows) == [Complete(rows[0])] + DropNa(rows[1..]);
    }
  }

  /** `dropna` works row by row and keeps the order: it distributes over concatenation. */
  lemma {:induction false} DropNaAppend(a: seq<RawRow>, b: seq<RawRow>)
    ensures DropNa(a + b) == DropNa(a) + DropNa(b)
  {
    if a == [] {
      assert a + b == b;
    } else {
      var u := a + b;
      assert u[0] == a[0] && u[1..] == a[1..] + b;
      DropNaStep(u);
      DropNaStep(a);
      DropNaAppend(a[1..], b);
      var head: seq<TrainingRow> := if Defined(a[0]) then [Complete(a[0])] else [];
      RowsAssoc(head, DropNa(a[1..]), DropNa(b));
    }
  }

  /** A single row is kept, completed, exactly when its lags are all defined. */
  lemma DropNaSingle(x: RawRow)
    ensures DropNa([x]) == if Defined(x) then [Complete(x)] else []
  {
    assert [x][1..] == [];
  }

  /** One step of `dropna`: the first row, then the rest. */
  lemma DropNaStep(rows: seq<RawRow>)
    requires rows != []
    ensures DropNa(rows) == (if Defined(rows[0]) then [Complete(rows[0])] else []) + DropNa(rows[1..])
  {
  }

  /** Concatenation of training tables is associative. */
  lemma RowsAssoc(x: seq<TrainingRow>, y: seq<TrainingRow>, z: seq<TrainingRow>)
    ensures x + (y + z) == (x + y) + z
  {
  }

  /** The raw row at a position i >= 24: its lags are all defined. */
  lemma RawRowAt(h: Series, i: nat)
    requires MaxLag <= i < |h|
    ensures RawTable(h)[i] == RawRow(h[i].time, Hour(h[i].time), DayOfWeek(h[i].time),
                                     Some(h[i - 1].value), Some(h[i - 4].value), Some(h[i - 24].value),
                                     h[i].value)
  {
  }

  /** Every row of the table keeps its time stamp and target, and its three lags are all
      defined exactly from position 24 on. */
  lemma RawTableDefined(h: Series, i: nat)
    requires i < |h|
    ensures RawTable(h)[i].time == h[i].time && RawTable(h)[i].target == h[i].value
    ensures Defined(RawTable(h)[i]) <==> i >= MaxLag
  {
  }

  /** From a position k >= 24 on, `dropna` keeps every row. */
  lemma DropNaTail(h: Series, k: nat)
    requires MaxLag <= k <= |h|
    ensures DropNa(RawTable(h)[k..]) == RowsFrom(h, k)
  {
    var tail := RawTable(h)[k..];
    forall i | 0 <= i < |tail|
      ensures Defined(tail[i]) && Complete(tail[i]) == RowAt(h, k + i)
    {
      RawRowAt(h, k + i);
    }
    DropNaKeepsDefined(tail);
  }

  /** Before position 24, `dropna` drops every row. */
  lemma {:induction false} DropNaHead(h: Series, k: nat)
    requires k <= MaxLag && k <= |h|
    ensures var cut := if |h| < MaxLag then |h| else MaxLag;
            DropNa(RawTable(h)[k..]) == DropNa(RawTable(h)[cut..])
    decreases MaxLag - k
  {
    var t := RawTable(h);
    if k < MaxLag && k < |h| {
      assert t[k..][1..] == t[k + 1..];
      assert t[k].lag24 == None;
      DropNaHead(h, k + 1);
    }
  }

  /** `dropna` on the table of a history of n rows leaves exactly the rows of positions 24
      onwards, none when n <= 24. */
  lemma TableRows(h: Series)
    ensures |h| <= MaxLag ==> DropNa(RawTable(h)) == []
    ensures |h| > MaxLag ==> DropNa(RawTable(h)) == RowsFrom(h, MaxLag)
  {
    var t := RawTable(h);
    DropNaHead(h, 0);
    assert t[0..] == t;
    if |h| <= MaxLag {
      assert t[|h|..] == [];
    } else {
      DropNaTail(h, MaxLag);
    }
  }

  /** Column names of the feature frame: `<target>_lag_<k>`, 'hour' and 'dayofweek'. */
  datatype Key = LagKey(lag: int) | HourKey | DayOfWeekKey

  /** The `features` list: the columns named 'hour' or 'dayofweek' or containing 'lag', in
      the order the frame has them (hour and day of week are added before the lags). */
  const TrainColumns: seq<Key> := [HourKey, DayOfWeekKey, LagKey(1), LagKey(4), LagKey(24)]

  /** A training row's value in a named column. */
  function Column(r: TrainingRow, k: Key): real
    requires k in TrainColumns
  {
    match k
    case HourKey => r.hour as real
    case DayOfWeekKey => r.dayOfWeek as real
    case LagKey(lag) => if lag == 1 then r.lag1 else if lag == 4 then r.lag4 else r.lag24
  }

  /** The positional feature vector the regressor is trained on: entry i is the row's
      value in the i-th training column. */
  function TrainVector(r: TrainingRow): (v: seq<real>)
    ensures |v| == |TrainColumns|
    ensures forall i :: 0 <= i < |v| ==> v[i] == Column(r, TrainColumns[i])
  {
    [r.hour as real, r.dayOfWeek as real, r.lag1, r.lag4, r.lag24]
  }

  /** `X_train` as a matrix. */
  function TrainMatrix(rows: seq<TrainingRow>): seq<seq<real>>
  {
    seq(|rows|, i requires 0 <= i < |rows| => TrainVector(rows[i]))
  }

  /** `y_train`. */
  function Labels(rows: seq<TrainingRow>): seq<real>
  {
    seq(|rows|, i requires 0 <= i < |rows| => rows[i].target)
  }
}

=== FILE: inflow_agent.dfy ===
/** `InflowAgent.forecast_inflow` (agents/inflow_agent.py): the same lag-feature loop as the
    price fallback, with no fallback of its own and with the outputs clamped at zero. */
module InflowAgent {
  import opened Results
  import opened TunnelConstants
  import opened Calendar
  import opened Features
  import opened Recursive

  /** `max(0, x)`: a negative prediction is reported as no inflow. */
  function AtLeastZero(x: real): (y: real)
    ensures y >= 0.0
    ensures x >= 0.0 ==> y == x
    ensures x < 0.0 ==> y == 0.0
  {
    if x > 0.0 then x else 0.0
  }

  /** `forecast_inflow(n_steps)` on the history of `inflow_to_tunnel_f1`. With 24 rows or
      fewer the training table is empty and fitting it raises; there is no fallback. */
  function ForecastInflow(h: Series, fit: Trainer, n: nat): (r: Result<Series>)
    ensures r.Err? <==> |h| <= MaxLag
    ensures r.Err? ==> r.error == NoTrainingRows
    ensures r.Ok? ==> |r.value| == n
    ensures r.Ok? ==> forall i :: 0 <= i < n ==> r.value[i].time == h[|h| - 1].time + TimestepMinutes * (i + 1)
    ensures r.Ok? ==> forall i :: 0 <= i < n ==> r.value[i].value >= 0.0
    ensures r.Ok? ==> forall i :: 0 <= i < n ==> r.value[i].value == AtLeastZero(Run(fit, h, n)[i].prediction)
  {
    if |TrainingRows(h)| == 0 then Err(NoTrainingRows)
    else
      var trace := Run(fit, h, n);
      Ok(seq(n, i requires 0 <= i < n => Point(trace[i].time, AtLeastZero(trace[i].prediction))))
  }

  /** The lags are fed the raw prediction, not the reported one: at step 0 they are the
      last history row's lags, and from step 1 on all three are the previous raw
      prediction, which is negative whenever a 0 was reported in its place. */
  lemma InflowFeedsRawPrediction(h: Series, fit: Trainer, n: nat)
    requires |h| > MaxLag
    ensures n > 0 ==> Run(fit, h, n)[0].features[..3] == [h[|h| - 2].value, h[|h| - 5].value, h[|h| - 25].value]
    ensures forall i :: 1 <= i < n ==>
              Run(fit, h, n)[i].features[..3] ==
              [Run(fit, h, n)[i - 1].prediction, Run(fit, h, n)[i - 1].prediction, Run(fit, h, n)[i - 1].prediction]
    ensures forall i :: 0 <= i < n && ForecastInflow(h, fit, n).value[i].value != Run(fit, h, n)[i].prediction ==>
              Run(fit, h, n)[i].prediction < 0.0 && ForecastInflow(h, fit, n).value[i].value == 0.0
  {
    var trace := Run(fit, h, n);
    RunFeedback(fit, h, n);
    forall i | 1 <= i < n
      ensures trace[i].features[..3] == [trace[i - 1].prediction, trace[i - 1].prediction, trace[i - 1].prediction]
    {
      assert FedBack(trace, ForecastTimes(h, n), i);
    }
  }
}

=== FILE: mpc.dfy ===
/** The model-predictive-control formulation of `OptimizationAgent`
    (agents/optimization_agent.py): its units, the quantities and constraints it declares,
    and what `solve_mpc` returns. The optimiser itself is left abstract: a candidate plan is
    judged by the predicate `Admissible`, and a solver run is an input. */
module Mpc {
  import opened Results
  import opened TunnelConstants
  import opened Physics

  /** `dt_h`: the step length in hours. */
  const DtH: real := TimestepMinutes as real / 60.0

  /** Bounds of the pumped flow F2, in m3/h. */
  const F2Min: real := 100.0
  const F2Max: real := 10000.0

  /** Dividing by a non-zero factor and multiplying by it again changes nothing. */
  lemma CancelFactor(d: real, x: real)
    requires d != 0.0
    ensures d * (x / d) == x
  {
  }

  /** `np.linspace(start, stop, num)`: num points from start in steps of
      (stop - start) / (num - 1), the last one set to stop itself. */
  function Linspace(start: real, stop: real, num: nat): (xs: seq<real>)
    ensures |xs| == num
    ensures num > 0 ==> xs[0] == start
    ensures num > 1 ==> xs[num - 1] == stop
    ensures num > 1 ==> forall k :: 0 <= k < num ==> xs[k] == start + k as real * ((stop - start) / (num - 1) as real)
    ensures num > 1 ==> forall k :: 0 <= k < num - 1 ==> xs[k + 1] - xs[k] == (stop - start) / (num - 1) as real
  {
    if num == 0 then []
    else if num == 1 then [start]
    else
      var step := (stop - start) / (num - 1) as real;
      var xs := seq(num, k requires 0 <= k < num => if k == num - 1 then stop else start + k as real * step);
      CancelFactor((num - 1) as real, stop - start);
      assert stop == start + (num - 1) as real * step;
      xs
  }

  /** `m.time`: H points from 0 to (H - 1) * dt_h. */
  function TimeGrid(horizon: nat): (grid: seq<real>)
    ensures |grid| == horizon
    ensures forall k :: 0 <= k < horizon ==> grid[k] == k as real * DtH
  {
    var grid := Linspace(0.0, (horizon - 1) as real * DtH, horizon);
    if horizon > 1 then
      var d := (horizon - 1) as real;
      assert (d * DtH) / d == DtH;
      grid
    else grid
  }

  /** `F1_h`: inflow per step (m3 per 15 min) to m3/h. */
  function InflowPerHour(inflow: seq<real>): (f1: seq<real>)
    ensures |f1| == |inflow|
    ensures forall k :: 0 <= k < |inflow| ==> f1[k] * DtH == inflow[k]
  {
    seq(|inflow|, k requires 0 <= k < |inflow| => inflow[k] * TimeStepsPerHour as real)
  }

  /** The level the solve derives from the volume: the straight line through
      (V_min, L1_MIN) and (V_max, L1_MAX). */
  function LinearLevel(v: real, vMin: real, vMax: real): (level: real)
    requires vMax != vMin
    ensures v == vMin ==> level == L1Min
    ensures v == vMax ==> level == L1Max
  {
    L1Min + (L1Max - L1Min) * (v - vMin) / (vMax - vMin)
  }

  /** The level map is strictly increasing when V_max > V_min, so it stays inside
      [L1_MIN, L1_MAX] on [V_min, V_max]. */
  lemma LinearLevelIncreasing(vMin: real, vMax: real, a: real, b: real)
    requires vMin < vMax && a < b
    ensures LinearLevel(a, vMin, vMax) < LinearLevel(b, vMin, vMax)
  {
    var w := vMax - vMin;
    assert (L1Max - L1Min) * (b - vMin) / w - (L1Max - L1Min) * (a - vMin) / w
           == (L1Max - L1Min) * ((b - a) / w);
    assert (b - a) / w > 0.0;
  }

  /** Fixing the mapped level to 0.5 is the same as fixing the volume to V_min. */
  lemma TerminalFixMeansEmpty(v: real, vMin: real, vMax: real)
    requires vMax != vMin
    ensures LinearLevel(v, vMin, vMax) == 0.5 <==> v == vMin
  {
    if LinearLevel(v, vMin, vMax) == 0.5 {
      var w := vMax - vMin;
      assert (L1Max - L1Min) * (v - vMin) / w == 0.0;
      assert (v - vMin) / w == 0.0;
      assert v - vMin == ((v - vMin) / w) * w;
    }
  }

  /** Under the fallback geometry the level map of the solve and the fallback volume to
      level conversion are the same function. */
  lemma FallbackLevelMapAgrees(v: real)
    ensures LinearLevel(v, FallbackVolume(L1Min), FallbackVolume(L1Max)) == FallbackLevel(v)
  {
    assert FallbackVolume(L1Min) == 5350.0 && FallbackVolume(L1Max) == 300350.0;
    assert (L1Max - L1Min) * (v - 5350.0) / (300350.0 - 5350.0) == (v - 5350.0) / 10000.0;
  }

  /** What the constructor and the parameter section fix before the solve. */
  datatype Problem = Problem(horizon: nat, vStart: real, vMin: real, vMax: real,
                             prices: seq<real>, f1: seq<real>)

  /** `OptimizationAgent(current_L1, price_forecast, inflow_forecast, horizon)` up to the
      declarations: `volumeOf` is `V_interp`, table-based or the fallback. */
  function Formulate(l1Start: real, volumeOf: real -> real, prices: seq<real>, inflow: seq<real>,
                     horizon: nat): (p: Problem)
    ensures p.vStart == volumeOf(l1Start) && p.vMin == volumeOf(L1Min) && p.vMax == volumeOf(L1Max)
    ensures p.horizon == horizon && p.prices == prices && |p.f1| == |inflow|
    ensures forall k :: 0 <= k < |inflow| ==> p.f1[k] * DtH == inflow[k]
  {
    Problem(horizon, volumeOf(l1Start), volumeOf(L1Min), volumeOf(L1Max), prices, InflowPerHour(inflow))
  }

  /** A candidate trajectory: the volume V and the pumped flow F2 at each grid point. */
  datatype Plan = Plan(volume: seq<real>, pumped: seq<real>)

  /** Every series the solve declares has one value per grid point. */
  predicate Shaped(p: Problem, plan: Plan)
  {
    p.horizon >= 1 && |plan.volume| == p.horizon && |plan.pumped| == p.horizon
    && |p.f1| == p.horizon && |p.prices| == p.horizon
  }

  /** `V.dt() == F1_t - F2` at step k, read as a forward Euler step. */
  predicate EulerStep(p: Problem, plan: Plan, k: nat)
    requires Shaped(p, plan) && k + 1 < p.horizon
  {
    plan.volume[k + 1] == plan.volume[k] + DtH * (p.f1[k] - plan.pumped[k])
  }

  /** The mass balance holds at every step. */
  predicate Dynamics(p: Problem, plan: Plan)
  {
    Shaped(p, plan) && forall k: nat :: k + 1 < p.horizon ==> EulerStep(p, plan, k)
  }

  /** A plan that meets every constraint the solve declares: it starts at the current
      volume, keeps V within [V_min, V_max] and F2 within [100, 10000], obeys the mass
      balance, and ends with the mapped level fixed at 0.5. Such a plan empties the tunnel
      down to V_min, which must lie strictly below V_max. */
  predicate Admissible(p: Problem, plan: Plan): (ok: bool)
    ensures ok ==> Shaped(p, plan) && p.vMin < p.vMax && plan.volume[p.horizon - 1] == p.vMin
  {
    var ok := Dynamics(p, plan) && p.vMin != p.vMax
              && plan.volume[0] == p.vStart
              && (forall k :: 0 <= k < p.horizon ==> p.vMin <= plan.volume[k] <= p.vMax)
              && (forall k :: 0 <= k < p.horizon ==> F2Min <= plan.pumped[k] <= F2Max)
              && LinearLevel(plan.volume[p.horizon - 1], p.vMin, p.vMax) == 0.5;
    if ok then TerminalFixMeansEmpty(plan.volume[p.horizon - 1], p.vMin, p.vMax); ok else ok
  }

  /** What an admissible plan guarantees at every grid point: the mapped level lies within
      [L1_MIN, L1_MAX], the pumps draw positive power, and the tunnel ends at V_min. */
  lemma AdmissiblePlanIsSafe(p: Problem, plan: Plan)
    requires Admissible(p, plan)
    ensures p.vMin < p.vMax
    ensures plan.volume[p.horizon - 1] == p.vMin
    ensures forall k :: 0 <= k < p.horizon ==>
              L1Min <= LinearLevel(plan.volume[k], p.vMin, p.vMax) <= L1Max
    ensures forall k :: 0 <= k < p.horizon ==>
              CalculatePower(plan.pumped[k], LinearLevel(plan.volume[k], p.vMin, p.vMax)) > 0.0
  {
    TerminalFixMeansEmpty(plan.volume[p.horizon - 1], p.vMin, p.vMax);
    forall k | 0 <= k < p.horizon
      ensures L1Min <= LinearLevel(plan.volume[k], p.vMin, p.vMax) <= L1Max
      ensures CalculatePower(plan.pumped[k], LinearLevel(plan.volume[k], p.vMin, p.vMax)) > 0.0
    {
      var v := plan.volume[k];
      if p.vMin < v { LinearLevelIncreasing(p.vMin, p.vMax, p.vMin, v); }
      if v < p.vMax { LinearLevelIncreasing(p.vMin, p.vMax, v, p.vMax); }
      PowerPositive(plan.pumped[k], LinearLevel(v, p.vMin, p.vMax));
    }
  }

  /** Net inflow over the first m steps, in m3/h summed: sum of F1[k] - F2[k] for k < m. */
  function NetInflow(f1: seq<real>, f2: seq<real>, m: nat): real
    requires m <= |f1| && m <= |f2|
  {
    if m == 0 then 0.0 else NetInflow(f1, f2, m - 1) + (f1[m - 1] - f2[m - 1])
  }

  /** Pumping capacity left over the first m steps: sum of 10000 - F1[k] for k < m. */
  function Headroom(f1: seq<real>, m: nat): real
    requires m <= |f1|
  {
    if m == 0 then 0.0 else Headroom(f1, m - 1) + (F2Max - f1[m - 1])
  }

  /** Under the Euler reading, the volume after m steps is the start volume plus dt_h times
      the net inflow so far. */
  lemma {:induction false} VolumeAfter(p: Problem, plan: Plan, m: nat)
    requires Dynamics(p, plan) && m < p.horizon
    ensures plan.volume[m] == plan.volume[0] + DtH * NetInflow(p.f1, plan.pumped, m)
  {
    if m > 0 {
      VolumeAfter(p, plan, m - 1);
      assert EulerStep(p, plan, m - 1);
    }
  }

  /** Over the horizon the volume changes by dt_h times the total net inflow. */
  lemma MassBalance(p: Problem, plan: Plan)
    requires Dynamics(p, plan)
    ensures plan.volume[p.horizon - 1] - plan.volume[0] == DtH * NetInflow(p.f1, plan.pumped, p.horizon - 1)
  {
    VolumeAfter(p, plan, p.horizon - 1);
  }

  lemma {:induction false} NoNetInflow(f: seq<real>, m: nat)
    requires m <= |f|
    ensures NetInflow(f, f, m) == 0.0
  {
    if m > 0 { NoNetInflow(f, m - 1); }
  }

  /** Pumping exactly the inflow keeps the volume where it started. */
  lemma BalancedPumpingHoldsVolume(p: Problem, plan: Plan)
    requires Dynamics(p, plan) && plan.pumped == p.f1
    ensures forall k :: 0 <= k < p.horizon ==> plan.volume[k] == plan.volume[0]
  {
    forall k | 0 <= k < p.horizon
      ensures plan.volume[k] == plan.volume[0]
    {
      VolumeAfter(p, plan, k);
      NoNetInflow(p.f1, k);
    }
  }

  /** With F2 at most 10000 the net inflow is at least minus the headroom. */
  lemma {:induction false} NetInflowAtLeast(f1: seq<real>, f2: seq<real>, m: nat)
    requires m <= |f1| && m <= |f2|
    requires forall k :: 0 <= k < m ==> f2[k] <= F2Max
    ensures NetInflow(f1, f2, m) >= -Headroom(f1, m)
  {
    if m > 0 { NetInflowAtLeast(f1, f2, m - 1); }
  }

  /** No admissible plan can drain more than the pumps' headroom allows: if the volume
      above V_min exceeds dt_h times the headroom over the first H - 1 steps, the
      terminal level cannot be reached. */
  lemma DrawdownInfeasible(p: Problem, plan: Plan)
    requires p.horizon >= 1 && |p.f1| == p.horizon
    requires p.vStart - p.vMin > DtH * Headroom(p.f1, p.horizon - 1)
    ensures !Admissible(p, plan)
  {
    if Admissible(p, plan) {
      AdmissiblePlanIsSafe(p, plan);
      MassBalance(p, plan);
      NetInflowAtLeast(p.f1, plan.pumped, p.horizon - 1);
    }
  }

  /** A strictly increasing level to volume map. */
  ghost predicate StrictlyIncreasing(f: real -> real)
  {
    forall a: real, b: real :: a < b ==> f(a) < f(b)
  }

  /** Under a strictly increasing geometry, a current level outside [L1_MIN, L1_MAX]
      leaves no admissible plan: the start volume violates V's bounds. */
  lemma StartOutsideRangeInfeasible(l1Start: real, volumeOf: real -> real, prices: seq<real>,
                                    inflow: seq<real>, horizon: nat, plan: Plan)
    requires StrictlyIncreasing(volumeOf)
    requires l1Start < L1Min || l1Start > L1Max
    ensures !Admissible(Formulate(l1Start, volumeOf, prices, inflow, horizon), plan)
  {
    var p := Formulate(l1Start, volumeOf, prices, inflow, horizon);
    if l1Start < L1Min {
      assert volumeOf(l1Start) < volumeOf(L1Min);
    } else {
      assert volumeOf(L1Max) < volumeOf(l1Start);
    }
  }

  // What `solve_mpc` returns.

  /** The optimiser's run: it raises, or it converges to a plan. */
  datatype SolverRun = SolverRaised | SolverConverged(plan: Plan)

  /** The frame the try block builds, one entry per grid point in each column. */
  datatype Schedule = Schedule(index: seq<int>, level: seq<real>, volume: seq<real>, pumped: seq<real>,
                               power: seq<real>, price: seq<real>, inflow: seq<real>)

  /** The name the result frame takes its index from. */
  const IndexName: string := "inflow_forecast"

  /** The names `solve_mpc` can resolve: its own locals and parameter, then the globals of
      agents/optimization_agent.py. The forecasts reach the method only as `self.prices`
      and `self.inflow_15min`. */
  const SolveScope: set<string> :=
    {"self", "m", "L1_min", "L1_max", "V_start", "V_min", "V_max", "F1_h", "Price_t", "F1_t",
     "V", "F2", "L1", "P", "final_L1_values",
     "np", "pd", "GEKKO", "TUNNEL_CONSTANTS", "get_level_volume_interpolator", "calculate_power",
     "OptimizationAgent"}

  /** The try block: solve, then assemble the frame, indexed by whatever `IndexName` denotes
      (`index`) when `scope` binds it. `levelOf` is `L_interp`. Raising on a failed solve,
      an unbound name or an index of the wrong length. */
  function TryBlock(scope: set<string>, index: seq<int>, p: Problem, run: SolverRun,
                    levelOf: real -> real): (r: Result<Schedule>)
    ensures run.SolverRaised? ==> r == Err(SolverFailed)
    ensures run.SolverConverged? && IndexName !in scope ==> r == Err(UnboundName(IndexName))
    ensures run.SolverConverged? && IndexName in scope && p.vMin == p.vMax ==> r == Err(SolverFailed)
    ensures r.Ok? ==> run.SolverConverged? && IndexName in scope && r.value.index == index
    ensures r.Ok? ==> |r.value.volume| == |index| && |r.value.level| == |index| && r.value.volume == run.plan.volume
    ensures r.Ok? ==> forall k :: 0 <= k < |index| ==> r.value.level[k] == levelOf(run.plan.volume[k])
    ensures r.Ok? ==> r.value.pumped == run.plan.pumped && |r.value.pumped| == |index| && |r.value.power| == |index|
    ensures r.Ok? ==> forall k :: 0 <= k < |index| ==>
              r.value.power[k] == CalculatePower(run.plan.pumped[k], LinearLevel(run.plan.volume[k], p.vMin, p.vMax))
    ensures r.Ok? ==> r.value.price == p.prices && r.value.inflow == p.f1
  {
    match run
    case SolverRaised => Err(SolverFailed)
    case SolverConverged(plan) =>
      if IndexName !in scope then Err(UnboundName(IndexName))
      // The level intermediate divides by V_max - V_min; the model only evaluates it
      // when solving, so a zero span surfaces as a failed solve.
      else if p.vMin == p.vMax then Err(SolverFailed)
      else if !Shaped(p, plan) || |index| != p.horizon then Err(ShapeMismatch)
      else
        var v := plan.volume;
        var level := seq(|v|, k requires 0 <= k < |v| => levelOf(v[k]));
        var power := seq(|v|, k requires 0 <= k < |v| =>
                         CalculatePower(plan.pumped[k], LinearLevel(v[k], p.vMin, p.vMax)));
        Ok(Schedule(index, level, v, plan.pumped, power, p.prices, p.f1))
  }

  /** `solve_mpc()`. Declaring F2 with initial value `F1_h[0]` happens before the try block,
      so an empty inflow forecast raises out of the method; any exception of the try block is
      caught and turned into None. Since `inflow_forecast` is not bound in the method, every
      call with a non-empty forecast ends that way. */
  function SolveMpc(p: Problem, run: SolverRun, levelOf: real -> real): (r: Result<Option<Schedule>>)
    ensures r.Err? <==> |p.f1| == 0
    ensures r.Err? ==> r.error == IndexOutOfRange
    ensures r.Ok? ==> r.value == None
  {
    if |p.f1| == 0 then Err(IndexOutOfRange)
    else
      match TryBlock(SolveScope, [], p, run, levelOf)
      case Ok(s) => Ok(Some(s))
      case Err(_) => Ok(None)
  }

  /** The method as intended: the forecast's time index is handed in, so the name the
      frame is indexed by is bound. An empty forecast still raises before the try block. */
  function SolveMpcIntended(p: Problem, run: SolverRun, levelOf: real -> real, index: seq<int>)
    : (r: Result<Option<Schedule>>)
    ensures r.Err? <==> |p.f1| == 0
    ensures r.Err? ==> r.error == IndexOutOfRange
    ensures |p.f1| > 0 && run.SolverRaised? ==> r == Ok(None)
    ensures r.Ok? && r.value.Some? ==>
              run.SolverConverged? && r.value.value.index == index && r.value.value.volume == run.plan.volume
  {
    if |p.f1| == 0 then Err(IndexOutOfRange)
    else
      match TryBlock(SolveScope + {IndexName}, index, p, run, levelOf)
      case Ok(s) => Ok(Some(s))
      case Err(_) => Ok(None)
  }

  /** When the solver converges to an admissible plan, the intended method returns it as a
      frame over the forecast index: one row per grid point, the volume within its bounds
      and ending at V_min, the plan's pumped flow within [100, 10000], positive power, and
      the inflow column in m3/h. */
  lemma IntendedScheduleFollowsPlan(p: Problem, plan: Plan, levelOf: real -> real, index: seq<int>)
    requires Admissible(p, plan) && |index| == p.horizon
    ensures SolveMpcIntended(p, SolverConverged(plan), levelOf, index).Ok?
    ensures var r := SolveMpcIntended(p, SolverConverged(plan), levelOf, index).value;
            r.Some? && r.value.index == index && |r.value.volume| == p.horizon
            && r.value.volume[p.horizon - 1] == p.vMin
            && (forall k :: 0 <= k < p.horizon ==> p.vMin <= r.value.volume[k] <= p.vMax)
            && (forall k :: 0 <= k < p.horizon ==> r.value.power[k] > 0.0)
            && r.value.pumped == plan.pumped
            && (forall k :: 0 <= k < p.horizon ==> F2Min <= r.value.pumped[k] <= F2Max)
            && r.value.inflow == p.f1 && r.value.price == p.prices
  {
    AdmissiblePlanIsSafe(p, plan);
  }
}

=== FILE: physics.dfy ===
/** Tunnel geometry fallback and pump power (utils/helpers.py). */
module Physics {
  import opened TunnelConstants

  /** Volume (m3) to level (m) when the calibration table cannot be read. */
  function FallbackLevel(volume: real): (level: real)
    ensures 10000.0 * level + 350.0 == volume
  {
    (volume - 350.0) / 10000.0
  }

  /** Level (m) to volume (m3) when the calibration table cannot be read:
      a tunnel of constant 10000 m2 cross-section plus 350 m3. */
  function FallbackVolume(level: real): (volume: real)
    ensures FallbackLevel(volume) == level
  {
    10000.0 * level + 350.0
  }

  /** The two fallback maps are mutually inverse and both strictly increasing. */
  lemma FallbackBijection(x: real, y: real)
    ensures FallbackVolume(FallbackLevel(y)) == y
    ensures x < y ==> FallbackVolume(x) < FallbackVolume(y)
    ensures x < y ==> FallbackLevel(x) < FallbackLevel(y)
  {
  }

  /** Fixed friction loss added to the static head, in metres. */
  const FrictionHead: real := 1.0

  /** kW per (m3/h times m of head): rho * g / 3600 / eta / 1000 with rho = 1000,
      g = 9.81 and eta = 0.80. */
  const PowerPerFlowHead: real := 9.81 / 2880.0

  /** Total pumping power in kW for flow `flow` (m3/h) at tunnel level `level` (m):
      P = rho * g * Q * H / eta / 1000 with Q in m3/s and H = L2 - level + friction. */
  function CalculatePower(flow: real, level: real): (kw: real)
    ensures kw == PowerPerFlowHead * flow * (L2Level + FrictionHead - level)
  {
    var rho := 1000.0;
    var g := 9.81;
    var staticHead := L2Level - level;
    var totalHead := staticHead + FrictionHead;
    var flowM3s := flow / 3600.0;
    var eta := 0.80;
    (rho * g * flowM3s * totalHead) / eta / 1000.0
  }

  /** No flow costs no power, and power is linear in the flow at a fixed level. */
  lemma PowerLinearInFlow(a: real, q1: real, q2: real, level: real)
    ensures CalculatePower(0.0, level) == 0.0
    ensures CalculatePower(a * q1 + q2, level) == a * CalculatePower(q1, level) + CalculatePower(q2, level)
  {
    var k := PowerPerFlowHead * (L2Level + FrictionHead - level);
    calc {
      CalculatePower(a * q1 + q2, level);
      PowerPerFlowHead * (a * q1 + q2) * (L2Level + FrictionHead - level);
      (a * q1 + q2) * k;
      a * (q1 * k) + q2 * k;
      a * CalculatePower(q1, level) + CalculatePower(q2, level);
    }
  }

  /** Pumping a non-negative flow below the head's zero point never yields negative power. */
  lemma PowerNonNegative(flow: real, level: real)
    requires flow >= 0.0 && level <= L2Level + FrictionHead
    ensures CalculatePower(flow, level) >= 0.0
  {
    var head := L2Level + FrictionHead - level;
    assert flow * head >= 0.0;
  }

  /** A positive flow below the head's zero point always needs positive power. */
  lemma PowerPositive(flow: real, level: real)
    requires flow > 0.0 && level < L2Level + FrictionHead
    ensures CalculatePower(flow, level) > 0.0
  {
    var head := L2Level + FrictionHead - level;
    assert flow * head > 0.0;
  }

  /** At a positive flow, a higher tunnel level means less head and so strictly less power. */
  lemma PowerDecreasesWithLevel(flow: real, lower: real, higher: real)
    requires flow > 0.0 && lower < higher
    ensures CalculatePower(flow, higher) < CalculatePower(flow, lower)
  {
    var d := higher - lower;
    assert flow * d > 0.0;
    assert CalculatePower(flow, lower) - CalculatePower(flow, higher) == PowerPerFlowHead * (flow * d);
  }
}

=== FILE: price_agent.dfy ===
/** `PriceAgent` (agents/price_agent.py): the machine-learning fallback forecast and the
    processing of the Nord Pool day-ahead list. */
module PriceAgent {
  import opened Results
  import opened TunnelConstants
  import opened Calendar
  import opened Features
  import opened Recursive

  // The machine-learning forecast.

  /** `_forecast_with_ml(n_steps)` on the history of `electricity_price_1_high`. An empty
      history has no last price, and reading it raises. */
  function ForecastWithMl(h: Series, fit: Trainer, n: nat): (r: Result<Series>)
    ensures r.Err? <==> |h| == 0
    ensures r.Ok? ==> |r.value| == n
    ensures r.Ok? ==> forall i :: 0 <= i < n ==> r.value[i].time == h[|h| - 1].time + TimestepMinutes * (i + 1)
    ensures 0 < |h| <= MaxLag ==> r.Ok? && forall i :: 0 <= i < n ==> r.value[i].value == h[|h| - 1].value
    ensures |h| > MaxLag ==> r.Ok? && forall i :: 0 <= i < n ==> r.value[i].value == Run(fit, h, n)[i].prediction
  {
    if |h| == 0 then Err(EmptyHistory)
    else
      if |TrainingRows(h)| == 0 then
        var last := h[|h| - 1];
        Ok(seq(n, i requires 0 <= i < n => Point(last.time + TimestepMinutes * (i + 1), last.value)))
      else
        var trace := Run(fit, h, n);
        Ok(seq(n, i requires 0 <= i < n => Point(trace[i].time, trace[i].prediction)))
  }

  /** What the regressor sees at each step of the trained forecast: at step 0 the lags of
      the last history row (so the newest price is not among them), and from step 1 on the
      price just forecast, in all three lag positions. The forecast values themselves are
      the regressor's raw outputs: nothing bounds them, a negative one included. */
  lemma MlForecastInputs(h: Series, fit: Trainer, n: nat)
    requires |h| > MaxLag
    ensures var r := ForecastWithMl(h, fit, n).value;
            n > 0 ==> Run(fit, h, n)[0].features ==
                      [h[|h| - 2].value, h[|h| - 5].value, h[|h| - 25].value,
                       Hour(r[0].time) as real, DayOfWeek(r[0].time) as real]
    ensures var r := ForecastWithMl(h, fit, n).value;
            forall i :: 1 <= i < n ==>
              Run(fit, h, n)[i].features ==
              [r[i - 1].value, r[i - 1].value, r[i - 1].value, Hour(r[i].time) as real, DayOfWeek(r[i].time) as real]
    ensures var r := ForecastWithMl(h, fit, n).value;
            forall i :: 0 <= i < n ==> r[i].value == Trained(fit, h)(Run(fit, h, n)[i].features)
  {
    var r := ForecastWithMl(h, fit, n).value;
    var trace := Run(fit, h, n);
    RunFeedback(fit, h, n);
    forall i | 1 <= i < n
      ensures trace[i].features ==
              [r[i - 1].value, r[i - 1].value, r[i - 1].value, Hour(r[i].time) as real, DayOfWeek(r[i].time) as real]
    {
      assert FedBack(trace, ForecastTimes(h, n), i);
    }
  }

  // The Nord Pool list.

  /** One entry of the area's `values`: its start, as local wall-clock minutes, and the
      price in EUR/MWh. */
  datatype Entry = Entry(start: int, valueMwh: real)

  /** `data['areas'][area]`: the `values` key may be missing. */
  datatype AreaData = AreaData(values: Option<seq<Entry>>)

  /** The dictionary `fetch` returns; the `areas` key may be missing. */
  datatype Payload = Payload(areas: Option<map<string, AreaData>>)

  /** The call to the Nord Pool client: it raises, or returns a payload or nothing. */
  datatype FetchOutcome = FetchRaised | FetchReturned(data: Option<Payload>)

  /** The area's entries, or None on every path that raises before they are read: the fetch
      itself, an empty or missing payload, no `areas`, no entry for the area, no `values`. */
  function AreaValues(o: FetchOutcome): (vs: Option<seq<Entry>>)
    ensures vs.Some? <==>
              o.FetchReturned? && o.data.Some? && o.data.value.areas.Some?
              && NordPoolArea in o.data.value.areas.value
              && o.data.value.areas.value[NordPoolArea].values.Some?
    ensures vs.Some? ==> vs == o.data.value.areas.value[NordPoolArea].values
  {
    match o
    case FetchRaised => None
    case FetchReturned(data) =>
      if data.None? || data.value.areas.None? || NordPoolArea !in data.value.areas.value then None
      else data.value.areas.value[NordPoolArea].values
  }

  /** `item['value'] / 1000.0`: EUR/MWh to EUR/kWh, at the entry's start. */
  function ToKwh(e: Entry): (p: Point)
    ensures p.time == e.start && 1000.0 * p.value == e.valueMwh
  {
    Point(e.start, e.valueMwh / 1000.0)
  }

  /** The list of `{'timestamp', 'price'}` records built from the entries. */
  function Scaled(es: seq<Entry>): (ps: seq<Point>)
    ensures |ps| == |es|
    ensures forall i :: 0 <= i < |es| ==> ps[i] == ToKwh(es[i])
  {
    seq(|es|, i requires 0 <= i < |es| => ToKwh(es[i]))
  }

  /** Ordered by time stamp, equal stamps allowed. */
  predicate SortedByTime(s: seq<Point>)
  {
    forall i, j :: 0 <= i < j < |s| ==> s[i].time <= s[j].time
  }

  /** Insertion of one point into a time-ordered series, after the points with the same
      time. The new head is the point itself or the old head. */
  function Insert(p: Point, s: seq<Point>): (r: seq<Point>)
    requires SortedByTime(s)
    ensures SortedByTime(r)
    ensures multiset(r) == multiset(s) + multiset{p}
    ensures |r| == |s| + 1
    ensures r[0] == p || (|s| > 0 && r[0] == s[0])
  {
    if s == [] then [p]
    else if p.time < s[0].time then [p] + s
    else
      var rest := Insert(p, s[1..]);
      assert s == [s[0]] + s[1..];
      assert s[0].time <= rest[0].time;
      assert forall j :: 0 <= j < |rest| ==> rest[0].time <= rest[j].time;
      [s[0]] + rest
  }

  /** `sort_index()` on the time stamps. */
  function SortByTime(s: seq<Point>): (r: seq<Point>)
    ensures SortedByTime(r)
    ensures multiset(r) == multiset(s)
    ensures |r| == |s|
  {
    if s == [] then []
    else
      assert s == [s[0]] + s[1..];
      Insert(s[0], SortByTime(s[1..]))
  }

  /** The first n points of a time-ordered series are no later than any point left out. */
  lemma {:induction false} PrefixIsEarliest(s: seq<Point>, n: nat)
    requires SortedByTime(s) && n <= |s|
    ensures multiset(s[..n]) <= multiset(s)
    ensures forall p, j :: 0 <= j < n && p in multiset(s) - multiset(s[..n]) ==> s[j].time <= p.time
  {
    assert s == s[..n] + s[n..];
    assert multiset(s) - multiset(s[..n]) == multiset(s[n..]);
    forall p, j | 0 <= j < n && p in multiset(s) - multiset(s[..n])
      ensures s[j].time <= p.time
    {
      assert p in s[n..];
      var k :| n <= k < |s| && s[k] == p;
    }
  }

  /** `.sort_index().iloc[:n]`: the n earliest points, in time order. */
  function Earliest(ps: seq<Point>, n: nat): (q: seq<Point>)
    requires n <= |ps|
    ensures |q| == n && SortedByTime(q)
    ensures multiset(q) <= multiset(ps)
    ensures forall p, j :: 0 <= j < n && p in multiset(ps) - multiset(q) ==> q[j].time <= p.time
  {
    var sorted := SortByTime(ps);
    PrefixIsEarliest(sorted, n);
    sorted[..n]
  }

  /** `fetch_nordpool_prices` up to its fallback decision: the area's prices in EUR/kWh, ordered by
      time, cut to the first n. None when the list cannot be read, when it is empty (the
      frame then has no `timestamp` column to index by) or when it has fewer than n entries. */
  function LiveQuote(o: FetchOutcome, n: nat): (q: Option<Series>)
    ensures q.Some? <==> AreaValues(o).Some? && |AreaValues(o).value| > 0 && |AreaValues(o).value| >= n
    ensures q.Some? ==> |q.value| == n && SortedByTime(q.value)
    ensures q.Some? ==> multiset(q.value) <= multiset(Scaled(AreaValues(o).value))
    ensures q.Some? ==>
              forall p, j :: 0 <= j < n && p in multiset(Scaled(AreaValues(o).value)) - multiset(q.value) ==>
                q.value[j].time <= p.time
  {
    var vs := AreaValues(o);
    if vs.None? || |vs.value| == 0 || |vs.value| < n then None
    else Some(Earliest(Scaled(vs.value), n))
  }

  /** `fetch_nordpool_prices(n_steps)`: the live prices when the list is usable, otherwise
      the machine-learning forecast. */
  function FetchNordPoolPrices(o: FetchOutcome, h: Series, fit: Trainer, n: nat): (r: Result<Series>)
    ensures LiveQuote(o, n).Some? ==> r == Ok(LiveQuote(o, n).value)
    ensures LiveQuote(o, n).None? ==> r == ForecastWithMl(h, fit, n)
    ensures r.Err? ==> |h| == 0 && LiveQuote(o, n).None?
    ensures r.Ok? ==> |r.value| == n
  {
    match LiveQuote(o, n)
    case Some(q) => Ok(q)
    case None => ForecastWithMl(h, fit, n)
  }

  /** A failed or malformed fetch always ends in the machine-learning forecast. */
  lemma FailedFetchFallsBack(o: FetchOutcome, h: Series, fit: Trainer, n: nat)
    requires o.FetchRaised? || o == FetchReturned(None) || o == FetchReturned(Some(Payload(None)))
             || (o.FetchReturned? && o.data.Some? && o.data.value.areas.Some?
                 && NordPoolArea !in o.data.value.areas.value)
    ensures FetchNordPoolPrices(o, h, fit, n) == ForecastWithMl(h, fit, n)
  {
  }

  /** A usable list of at least n entries is served as is: each price is the entry's value
      divided by 1000 at the entry's start, and the n kept are the earliest. */
  lemma LiveListServed(areas: map<string, AreaData>, es: seq<Entry>, h: Series, fit: Trainer, n: nat)
    requires NordPoolArea in areas && areas[NordPoolArea] == AreaData(Some(es))
    requires 0 < |es| && n <= |es|
    ensures var r := FetchNordPoolPrices(FetchReturned(Some(Payload(Some(areas)))), h, fit, n);
            r.Ok? && |r.value| == n && SortedByTime(r.value) &&
            (forall j :: 0 <= j < n ==> exists e :: e in es && r.value[j] == ToKwh(e))
  {
    var o := FetchReturned(Some(Payload(Some(areas))));
    var q := LiveQuote(o, n).value;
    forall j | 0 <= j < n
      ensures exists e :: e in es && q[j] == ToKwh(e)
    {
      assert q[j] in multiset(q);
      assert q[j] in multiset(Scaled(es));
      assert q[j] in Scaled(es);
      var k :| 0 <= k < |es| && Scaled(es)[k] == q[j];
      assert es[k] in es;
    }
  }
}

=== FILE: recursive.dfy ===
/** The autoregressive forecasting loop of `_forecast_with_ml` (agents/price_agent.py) and
    `forecast_inflow` (agents/inflow_agent.py), with the learned regressor uninterpreted,
    and the forecaster the lag update was meant to implement. */
module Recursive {
  import opened Results
  import opened Calendar
  import opened TunnelConstants
  import opened Features

  /** A fitted regressor: it reads its input by position, not by column name. */
  type Regressor = seq<real> -> real

  /** Training: from the feature matrix and the targets to a fitted regressor. */
  type Trainer = (seq<seq<real>>, seq<real>) -> Regressor

  /** The regressor fitted on a training table. */
  function Fitted(fit: Trainer, rows: seq<TrainingRow>): Regressor
  {
    fit(TrainMatrix(rows), Labels(rows))
  }

  /** The `last_values` dictionary, keyed by column name. */
  type LagState = map<Key, real>

  /** The keys `last_values` starts with, one per training column. */
  const StateKeys: set<Key> := {LagKey(1), LagKey(4), LagKey(24), HourKey, DayOfWeekKey}

  /** `df_features[features].iloc[-1].to_dict()`: the last training row's columns. */
  function InitialState(r: TrainingRow): (s: LagState)
    ensures s.Keys == StateKeys
    ensures forall k :: k in StateKeys <==> k in TrainColumns
    ensures forall k :: k in TrainColumns ==> s[k] == Column(r, k)
  {
    map[LagKey(1) := r.lag1, LagKey(4) := r.lag4, LagKey(24) := r.lag24,
        HourKey := r.hour as real, DayOfWeekKey := r.dayOfWeek as real]
  }

  /** The columns of the frame handed to `predict`, in the order `current_features` is
      built: the lag entries first, then 'hour' and 'dayofweek'. */
  const PredictColumns: seq<Key> := [LagKey(1), LagKey(4), LagKey(24), HourKey, DayOfWeekKey]

  /** The row handed to `predict`: the state's lag entries, then the hour and day of week of
      the forecast time stamp (the state's own calendar entries are not read). */
  function PredictVector(s: LagState, t: int): (v: seq<real>)
    requires s.Keys == StateKeys
    ensures |v| == |PredictColumns|
    ensures forall i :: 0 <= i < 3 ==> v[i] == s[PredictColumns[i]]
    ensures v[3] == Hour(t) as real && v[4] == DayOfWeek(t) as real
  {
    [s[LagKey(1)], s[LagKey(4)], s[LagKey(24)], Hour(t) as real, DayOfWeek(t) as real]
  }

  /** The order the update walks the lags in: `sorted([24, 4, 1], reverse=True)`. */
  const UpdateOrder: seq<int> := [24, 4, 1]

  /** One pass of the update loop body for `lag`: copy the entry of `lag - 1` when that key
      exists, otherwise overwrite the entry of `lag` with the new prediction when it exists. */
  function UpdateOne(s: LagState, lag: int, p: real): LagState
  {
    var prev: Option<Key> := if lag > 1 then Some(LagKey(lag - 1)) else None;
    if prev.Some? && prev.value in s then s[LagKey(lag) := s[prev.value]]
    else if LagKey(lag) in s then s[LagKey(lag) := p]
    else s
  }

  /** The update loop over `order`. */
  function UpdateAll(s: LagState, order: seq<int>, p: real): LagState
    decreases |order|
  {
    if order == [] then s else UpdateAll(UpdateOne(s, order[0], p), order[1..], p)
  }

  /** The lag update after predicting `p`, then `last_values[lag_1] = p`. No key of the form
      `lag_{k-1}` exists (lag_23, lag_3), so nothing is shifted: every lag becomes the new
      prediction, and the calendar entries stay as they were. */
  function UpdateLags(s: LagState, p: real): (s': LagState)
    requires s.Keys == StateKeys
    ensures s'.Keys == StateKeys
    ensures s'[LagKey(1)] == p && s'[LagKey(4)] == p && s'[LagKey(24)] == p
    ensures s'[HourKey] == s[HourKey] && s'[DayOfWeekKey] == s[DayOfWeekKey]
  {
    assert UpdateOrder[1..] == [4, 1] && UpdateOrder[1..][1..] == [1];
    UpdateAll(s, UpdateOrder, p)[LagKey(1) := p]
  }

  /** One iteration of the forecast loop: its time stamp, the vector handed to the
      regressor and the raw prediction. */
  datatype Step = Step(time: int, features: seq<real>, prediction: real)

  /** The raw predictions of a run. */
  function Predictions(trace: seq<Step>): seq<real>
  {
    seq(|trace|, i requires 0 <= i < |trace| => trace[i].prediction)
  }

  /** The forecast loop from lag state `s` over the forecast time stamps. */
  function Rollout(predict: Regressor, s: LagState, times: seq<int>): (trace: seq<Step>)
    requires s.Keys == StateKeys
    ensures |trace| == |times|
    ensures forall i :: 0 <= i < |trace| ==> trace[i].time == times[i]
    ensures forall i :: 0 <= i < |trace| ==> trace[i].prediction == predict(trace[i].features)
    ensures forall i :: 0 <= i < |trace| ==> |trace[i].features| == 5
    ensures |trace| > 0 ==> trace[0].features == PredictVector(s, times[0])
    decreases |times|
  {
    if times == [] then []
    else
      var x := PredictVector(s, times[0]);
      var p := predict(x);
      [Step(times[0], x, p)] + Rollout(predict, UpdateLags(s, p), times[1..])
  }

  /** Step i of a run was fed the previous step's raw prediction in all three lag positions,
      and the hour and day of week of its own time stamp. */
  predicate FedBack(trace: seq<Step>, times: seq<int>, i: int)
    requires 1 <= i < |trace| && |times| == |trace|
  {
    trace[i].features == [trace[i - 1].prediction, trace[i - 1].prediction, trace[i - 1].prediction,
                          Hour(times[i]) as real, DayOfWeek(times[i]) as real]
  }

  /** Every vector fed after the first carries the previous step's raw prediction in all
      three lag positions: the 4- and 24-step lags never see older values. */
  lemma {:induction false} FeedbackCollapse(predict: Regressor, s: LagState, times: seq<int>)
    requires s.Keys == StateKeys
    ensures forall i :: 1 <= i < |times| ==> FedBack(Rollout(predict, s, times), times, i)
    decreases |times|
  {
    if |times| >= 2 {
      var trace := Rollout(predict, s, times);
      var p := predict(PredictVector(s, times[0]));
      var s' := UpdateLags(s, p);
      var rest := Rollout(predict, s', times[1..]);
      assert trace == [Step(times[0], PredictVector(s, times[0]), p)] + rest;
      FeedbackCollapse(predict, s', times[1..]);
      forall i | 1 <= i < |trace|
        ensures FedBack(trace, times, i)
      {
        assert trace[i] == rest[i - 1];
        assert times[1..][i - 1] == times[i];
        if i == 1 {
          assert trace[0].prediction == p;
          assert rest[0].features == PredictVector(s', times[1..][0]);
        } else {
          assert FedBack(rest, times[1..], i - 1);
          assert trace[i - 1] == rest[i - 2];
        }
      }
    }
  }

  // The forecaster the update loop was meant to implement.

  /** The training-order vector for the next step, read from a window of the series
      (history, then the predictions so far). */
  function WindowVector(window: seq<real>, t: int): seq<real>
    requires |window| >= MaxLag
  {
    [Hour(t) as real, DayOfWeek(t) as real,
     window[|window| - 1], window[|window| - 4], window[|window| - 24]]
  }

  /** The intended loop: each prediction is appended to the series, and each lag is read
      from the series at its own offset. */
  function IntendedRollout(predict: Regressor, window: seq<real>, times: seq<int>): (trace: seq<Step>)
    requires |window| >= MaxLag
    ensures |trace| == |times|
    ensures forall i :: 0 <= i < |trace| ==> trace[i].time == times[i]
    ensures forall i :: 0 <= i < |trace| ==> trace[i].prediction == predict(trace[i].features)
    decreases |times|
  {
    if times == [] then []
    else
      var x := WindowVector(window, times[0]);
      var p := predict(x);
      [Step(times[0], x, p)] + IntendedRollout(predict, window + [p], times[1..])
  }

  /** Step i of an intended run from `window` sees the hour and day of week of its own time
      stamp and lag_k = (window ++ predictions)[|window| + i - k] for k in {1, 4, 24}. */
  predicate SeesTrueLags(trace: seq<Step>, times: seq<int>, window: seq<real>, i: int)
    requires 0 <= i < |trace| && |times| == |trace| && |window| >= MaxLag
  {
    var ext := window + Predictions(trace);
    var n := |window|;
    trace[i].features == [Hour(times[i]) as real, DayOfWeek(times[i]) as real,
                          ext[n + i - 1], ext[n + i - 4], ext[n + i - 24]]
  }

  /** In the intended loop every step reads each lag at its own offset of the series
      extended by the predictions so far, with the columns in training order. */
  lemma {:induction false} IntendedLagsAreTrueLags(predict: Regressor, window: seq<real>, times: seq<int>)
    requires |window| >= MaxLag
    ensures forall i :: 0 <= i < |times| ==> SeesTrueLags(IntendedRollout(predict, window, times), times, window, i)
    decreases |times|
  {
    if times != [] {
      var trace := IntendedRollout(predict, window, times);
      var x := WindowVector(window, times[0]);
      var p := predict(x);
      var w' := window + [p];
      var rest := IntendedRollout(predict, w', times[1..]);
      assert trace == [Step(times[0], x, p)] + rest;
      IntendedLagsAreTrueLags(predict, w', times[1..]);
      var ext := window + Predictions(trace);
      assert Predictions(trace) == [p] + Predictions(rest);
      assert ext == w' + Predictions(rest);
      var n := |window|;
      forall i | 0 <= i < |trace|
        ensures SeesTrueLags(trace, times, window, i)
      {
        if i == 0 {
          assert ext[n - 1] == window[n - 1] && ext[n - 4] == window[n - 4] && ext[n - 24] == window[n - 24];
        } else {
          assert trace[i] == rest[i - 1];
          assert times[1..][i - 1] == times[i];
          assert SeesTrueLags(rest, times[1..], w', i - 1);
        }
      }
    }
  }

  // The loop as both agents start it.

  /** The time stamps the agents forecast for: 15-minute steps after the last history row. */
  function ForecastTimes(h: Series, n: nat): (times: seq<int>)
    requires |h| > 0
    ensures |times| == n
    ensures forall i :: 0 <= i < n ==> times[i] == h[|h| - 1].time + TimestepMinutes * (i + 1)
  {
    StepsAfter(h[|h| - 1].time, n)
  }

  /** The regressor both agents fit on the history's training table. */
  function Trained(fit: Trainer, h: Series): Regressor
  {
    Fitted(fit, TrainingRows(h))
  }

  /** The loop as written: trained on the training table, started from its last row, over
      the 15-minute steps after that row (which is the last history row). Step 0 is fed the
      lags of the last history row itself, one position staler than the newest value. */
  function Run(fit: Trainer, h: Series, n: nat): (trace: seq<Step>)
    requires |h| > MaxLag
    ensures |trace| == n
    ensures forall i :: 0 <= i < n ==> trace[i].time == h[|h| - 1].time + TimestepMinutes * (i + 1)
    ensures forall i :: 0 <= i < n ==> trace[i].prediction == Trained(fit, h)(trace[i].features)
    ensures forall i :: 0 <= i < n ==> |trace[i].features| == 5
    ensures n > 0 ==> trace[0].features == [h[|h| - 2].value, h[|h| - 5].value, h[|h| - 25].value,
                                            Hour(trace[0].time) as real, DayOfWeek(trace[0].time) as real]
  {
    var rows := TrainingRows(h);
    var last := rows[|rows| - 1];
    assert last == RowAt(h, |h| - 1);
    Rollout(Fitted(fit, rows), InitialState(last), StepsAfter(last.time, n))
  }

  /** Every step after the first is fed the previous raw prediction as all three lags. */
  lemma RunFeedback(fit: Trainer, h: Series, n: nat)
    requires |h| > MaxLag
    ensures forall i :: 1 <= i < n ==> FedBack(Run(fit, h, n), ForecastTimes(h, n), i)
  {
    var rows := TrainingRows(h);
    var last := rows[|rows| - 1];
    assert last == RowAt(h, |h| - 1);
    FeedbackCollapse(Fitted(fit, rows), InitialState(last), StepsAfter(last.time, n));
  }

  /** The first vector the loop hands to the regressor holds the last training row's
      columns in another order: its three lags come first, where training put the hour and
      the day of week, and the calendar columns of the forecast time stamp come last. The
      regressor reads by position. */
  lemma PredictOrderIsRotated(fit: Trainer, h: Series, n: nat)
    requires |h| > MaxLag && n > 0
    ensures |TrainingRows(h)| > 0 && TrainingRows(h)[|TrainingRows(h)| - 1] == RowAt(h, |h| - 1)
    ensures Run(fit, h, n)[0].features[..3] == TrainVector(RowAt(h, |h| - 1))[2..]
    ensures Run(fit, h, n)[0].features[3..] == [Hour(Run(fit, h, n)[0].time) as real,
                                                 DayOfWeek(Run(fit, h, n)[0].time) as real]
    ensures TrainVector(RowAt(h, |h| - 1))[..2] == [Hour(h[|h| - 1].time) as real,
                                                    DayOfWeek(h[|h| - 1].time) as real]
  {
  }

  /** The loop as intended: the same regressor, run over the history extended by the
      predictions, reading lag k at offset k. */
  function IntendedRun(fit: Trainer, h: Series, n: nat): (trace: seq<Step>)
    requires |h| > MaxLag
    ensures |trace| == n
    ensures forall i :: 0 <= i < n ==> trace[i].time == h[|h| - 1].time + TimestepMinutes * (i + 1)
    ensures forall i :: 0 <= i < n ==> trace[i].prediction == Trained(fit, h)(trace[i].features)
  {
    IntendedRollout(Trained(fit, h), Values(h), ForecastTimes(h, n))
  }

  /** In the intended loop step i reads lag k from the history extended by the earlier
      predictions; step 0 sees the newest observation as its 1-step lag. */
  lemma IntendedRunTrueLags(fit: Trainer, h: Series, n: nat)
    requires |h| > MaxLag
    ensures forall i :: 0 <= i < n ==> SeesTrueLags(IntendedRun(fit, h, n), ForecastTimes(h, n), Values(h), i)
    ensures n > 0 ==> IntendedRun(fit, h, n)[0].features[2] == h[|h| - 1].value
  {
    IntendedLagsAreTrueLags(Trained(fit, h), Values(h), ForecastTimes(h, n));
    if n > 0 {
      assert SeesTrueLags(IntendedRun(fit, h, n), ForecastTimes(h, n), Values(h), 0);
      assert (Values(h) + Predictions(IntendedRun(fit, h, n)))[|h| - 1] == h[|h| - 1].value;
    }
  }

  /** Whenever the last two observations differ, the loop as written feeds step 0 a
      1-step lag other than the one the intended loop feeds it. */
  lemma RunFirstLagIsStale(fit: Trainer, h: Series, n: nat)
    requires |h| > MaxLag && n > 0
    requires h[|h| - 1].value != h[|h| - 2].value
    ensures Run(fit, h, n)[0].features[0] != IntendedRun(fit, h, n)[0].features[2]
  {
    IntendedRunTrueLags(fit, h, n);
  }
}

=== FILE: results.dfy ===
/** Failure-aware wrappers shared by the forecasting and optimisation modules. */
module Results {

  /** A value that may be absent: pandas' NaN, a missing dictionary key, Python's None. */
  datatype Option<+T> = None | Some(value: T)

  /** The exceptions the modelled code can raise. */
  datatype Failure =
    | EmptyHistory          // `.iloc[-1]` or `.index[-1]` on a frame with no rows
    | NoTrainingRows        // fitting the regressor on a training table with no rows
    | UnboundName(name: string)   // a NameError
    | SolverFailed          // the optimiser's `solve` raising (no convergence, or a zero volume span)
    | ShapeMismatch         // building a frame from columns and an index of another length
    | IndexOutOfRange       // `[0]` on an empty array

  /** The outcome of an operation that either returns a value or raises. */
  datatype Result<+T> = Ok(value: T) | Err(error: Failure)
}

=== FILE: timestamp_rewrite.dfy ===
/** The regular-expression rewrite that `load_and_clean_data` (utils/helpers.py) applies to
    the "Time stamp" column before parsing it. The pattern has six groups: one or two
    digits, '.', one or two digits, '.', four digits, a run of white space, then one or two
    digits, '.', one or two digits, '.', one or two digits. The replacement keeps the three
    date groups joined by '.', puts one space, and joins the three time groups by ':'.
    It is applied like `re.sub`: scan left to right and replace every non-overlapping match. */
module TimestampRewrite {
  import opened CharClass
  import opened Results

  /** One match: where it ends and its six capture groups. */
  datatype Match = Match(end: nat, groups: seq<string>)

  /** `(\d{1,2})\.` at position i: the number of digits captured. The greedy try of two
      digits comes first; falling back to one digit needs a '.' right after it. */
  function DigitsBeforeDot(s: string, i: nat): (d: Option<nat>)
    ensures d.Some? ==> 1 <= d.value <= 2 && i + d.value < |s| && s[i + d.value] == '.'
    ensures d.Some? ==> forall k :: i <= k < i + d.value ==> IsDigit(s[k])
  {
    if i + 2 < |s| && IsDigit(s[i]) && IsDigit(s[i + 1]) && s[i + 2] == '.' then Some(2)
    else if i + 1 < |s| && IsDigit(s[i]) && s[i + 1] == '.' then Some(1)
    else None
  }

  /** The final `(\d{1,2})`: two digits when there are two, else one. */
  function TrailingDigits(s: string, i: nat): (d: Option<nat>)
    ensures d.Some? ==> 1 <= d.value <= 2 && i + d.value <= |s|
    ensures d.Some? ==> forall k :: i <= k < i + d.value ==> IsDigit(s[k])
    ensures d == Some(1) && i + 1 < |s| ==> !IsDigit(s[i + 1])
  {
    if i + 1 < |s| && IsDigit(s[i]) && IsDigit(s[i + 1]) then Some(2)
    else if i < |s| && IsDigit(s[i]) then Some(1)
    else None
  }

  /** `\d{4}` at position i. */
  predicate FourDigits(s: string, i: nat)
  {
    i + 4 <= |s| && IsDigit(s[i]) && IsDigit(s[i + 1]) && IsDigit(s[i + 2]) && IsDigit(s[i + 3])
  }

  /** Length of the longest run of white space starting at i. */
  function SpaceRun(s: string, i: nat): (w: nat)
    ensures w > 0 ==> i + w <= |s|
    ensures forall k :: i <= k < i + w ==> IsSpace(s[k])
    ensures i + w < |s| ==> !IsSpace(s[i + w])
    decreases |s| - i
  {
    if i < |s| && IsSpace(s[i]) then 1 + SpaceRun(s, i + 1) else 0
  }

  /** The regex matched at position i. No backtracking alternative is missed: a shorter
      `\s+` leaves white space where a digit is needed, and a one-digit group where two
      digits are available leaves a digit where a '.' is needed. */
  function MatchAt(s: string, i: nat): (m: Option<Match>)
    ensures m.Some? ==> i < m.value.end <= |s| && |m.value.groups| == 6
    ensures m.Some? ==> |Replacement(m.value.groups)| <= m.value.end - i
  {
    match DigitsBeforeDot(s, i)
    case None => None
    case Some(d1) =>
      match DigitsBeforeDot(s, i + d1 + 1)
      case None => None
      case Some(d2) => MatchFromYear(s, i, d1, d2)
  }

  /** The rest of a match at i whose day and month fields have d1 and d2 digits: the year,
      the white-space run, then the time. */
  function MatchFromYear(s: string, i: nat, d1: nat, d2: nat): (m: Option<Match>)
    requires DigitsBeforeDot(s, i) == Some(d1) && DigitsBeforeDot(s, i + d1 + 1) == Some(d2)
    ensures m.Some? ==> i < m.value.end <= |s| && |m.value.groups| == 6
    ensures m.Some? ==> |Replacement(m.value.groups)| <= m.value.end - i
  {
    var i3 := i + d1 + d2 + 2;
    if !FourDigits(s, i3) then None
    else
      var w := SpaceRun(s, i3 + 4);
      if w == 0 then None
      else MatchFromHour(s, i, d1, d2, w)
  }

  /** The date part of a match at i is matched: day and month fields of d1 and d2 digits,
      each followed by '.', a four-digit year, and a white-space run of length w > 0. */
  predicate DateStages(s: string, i: nat, d1: nat, d2: nat, w: nat)
  {
    && DigitsBeforeDot(s, i) == Some(d1) && DigitsBeforeDot(s, i + d1 + 1) == Some(d2)
    && FourDigits(s, i + d1 + d2 + 2) && SpaceRun(s, i + d1 + d2 + 6) == w && w > 0
  }

  /** The time part of a match at i whose date part has d1 and d2 digit fields and is
      followed by a white-space run of length w. */
  function MatchFromHour(s: string, i: nat, d1: nat, d2: nat, w: nat): (m: Option<Match>)
    requires DateStages(s, i, d1, d2, w)
    ensures m.Some? ==> i < m.value.end <= |s| && |m.value.groups| == 6
    ensures m.Some? ==> |Replacement(m.value.groups)| + w == m.value.end - i + 1
  {
    var i4 := i + d1 + d2 + 6 + w;
    match DigitsBeforeDot(s, i4)
    case None => None
    case Some(d4) =>
      var i5 := i4 + d4 + 1;
      match DigitsBeforeDot(s, i5)
      case None => None
      case Some(d5) =>
        var i6 := i5 + d5 + 1;
        match TrailingDigits(s, i6)
        case None => None
        case Some(d6) =>
          Some(Match(i6 + d6, Groups(s, i, d1, d2, w, d4, d5, d6)))
  }

  /** Every stage of a match at i is matched: the date part, then hour and minute fields
      of d4 and d5 digits, each followed by '.', and a seconds field of d6 digits. */
  predicate MatchStages(s: string, i: nat, d1: nat, d2: nat, w: nat, d4: nat, d5: nat, d6: nat)
  {
    var i4 := i + d1 + d2 + 6 + w;
    && DateStages(s, i, d1, d2, w)
    && DigitsBeforeDot(s, i4) == Some(d4) && DigitsBeforeDot(s, i4 + d4 + 1) == Some(d5)
    && TrailingDigits(s, i4 + d4 + d5 + 2) == Some(d6)
  }


  /** Digits at every position of [p, p + n). */
  predicate DigitsIn(s: string, p: nat, n: nat)
  {
    p + n <= |s| && forall k :: p <= k < p + n ==> IsDigit(s[k])
  }

  /** White space at every position of [p, p + n). */
  predicate SpacesIn(s: string, p: nat, n: nat)
  {
    p + n <= |s| && forall k :: p <= k < p + n ==> IsSpace(s[k])
  }

  /** The text from i has the shape of the pattern: fields of d1 and d2 digits, each
      followed by '.', four digits, w > 0 white-space characters, fields of d4 and d5
      digits, each followed by '.', and a final field of d6 digits; every digit field is
      one or two long, and a one-digit final field is not followed by a digit (the greedy
      `\d{1,2}` would take it). */
  predicate StampShape(s: string, i: nat, d1: nat, d2: nat, w: nat, d4: nat, d5: nat, d6: nat)
  {
    var i2 := i + d1 + 1;
    var i3 := i2 + d2 + 1;
    var i4 := i3 + 4 + w;
    var i5 := i4 + d4 + 1;
    var i6 := i5 + d5 + 1;
    && 1 <= d1 <= 2 && 1 <= d2 <= 2 && w > 0 && 1 <= d4 <= 2 && 1 <= d5 <= 2 && 1 <= d6 <= 2
    && i6 + d6 <= |s|
    && DigitsIn(s, i, d1) && s[i + d1] == '.'
    && DigitsIn(s, i2, d2) && s[i2 + d2] == '.'
    && DigitsIn(s, i3, 4) && SpacesIn(s, i3 + 4, w)
    && DigitsIn(s, i4, d4) && s[i4 + d4] == '.'
    && DigitsIn(s, i5, d5) && s[i5 + d5] == '.'
    && DigitsIn(s, i6, d6)
    && (d6 == 1 && i6 + 1 < |s| ==> !IsDigit(s[i6 + 1]))
  }

  /** Where a match at i with the given field lengths ends. */
  function StampEnd(i: nat, d1: nat, d2: nat, w: nat, d4: nat, d5: nat, d6: nat): nat
  {
    i + d1 + d2 + d4 + d5 + d6 + w + 8
  }

  /** `m` is what the pattern matches at i: the text from i to m.end has the shape of the
      pattern, with the lengths of m's groups as its field lengths, and the groups are the
      text of the six digit fields. */
  predicate MatchedAt(s: string, i: nat, m: Match)
  {
    && |m.groups| == 6
    && var d1, d2, d4, d5, d6 := |m.groups[0]|, |m.groups[1]|, |m.groups[3]|, |m.groups[4]|, |m.groups[5]|;
       var w := m.end - StampEnd(i, d1, d2, 0, d4, d5, d6);
       && |m.groups[2]| == 4 && w > 0
       && StampShape(s, i, d1, d2, w, d4, d5, d6)
       && m == Match(StampEnd(i, d1, d2, w, d4, d5, d6), Groups(s, i, d1, d2, w, d4, d5, d6))
  }

  /** The six capture groups of a match at i, given the digit counts of its fields
      and the length w of its white-space run. */
  function Groups(s: string, i: nat, d1: nat, d2: nat, w: nat, d4: nat, d5: nat, d6: nat): (g: seq<string>)
    requires StampEnd(i, d1, d2, w, d4, d5, d6) <= |s|
    ensures |g| == 6
    ensures |g[0]| == d1 && |g[1]| == d2 && |g[2]| == 4 && |g[3]| == d4 && |g[4]| == d5 && |g[5]| == d6
  {
    var i2 := i + d1 + 1;
    var i3 := i2 + d2 + 1;
    var i4 := i3 + 4 + w;
    var i5 := i4 + d4 + 1;
    var i6 := i5 + d5 + 1;
    [s[i..i + d1], s[i2..i2 + d2], s[i3..i3 + 4], s[i4..i4 + d4], s[i5..i5 + d5], s[i6..i6 + d6]]
  }

  /** `\1.\2.\3 \4:\5:\6`. */
  function Replacement(g: seq<string>): (r: string)
    requires |g| == 6
    ensures |r| == |g[0]| + |g[1]| + |g[2]| + |g[3]| + |g[4]| + |g[5]| + 5
  {
    g[0] + "." + g[1] + "." + g[2] + " " + g[3] + ":" + g[4] + ":" + g[5]
  }

  /** `re.sub` from position i on. It never lengthens the text: the replacement keeps the
      six fields and the four separators around them, and turns the white-space run, at
      least one character long, into a single blank. */
  function SubFrom(s: string, i: nat): (r: string)
    ensures i <= |s| ==> |r| <= |s| - i
    ensures |r| == 0 <==> i >= |s|
    decreases |s| - i
  {
    if i >= |s| then []
    else
      match MatchAt(s, i)
      case Some(m) => Replacement(m.groups) + SubFrom(s, m.end)
      case None => [s[i]] + SubFrom(s, i + 1)
  }

  /** The rewrite of one cell of the "Time stamp" column. */
  function Rewrite(s: string): (r: string)
    ensures |r| <= |s|
    ensures |r| == 0 <==> |s| == 0
  {
    SubFrom(s, 0)
  }

  /** Every stage of the matcher succeeding gives the shape of the pattern. */
  lemma StagesShape(s: string, i: nat, d1: nat, d2: nat, w: nat, d4: nat, d5: nat, d6: nat)
    requires MatchStages(s, i, d1, d2, w, d4, d5, d6)
    ensures StampShape(s, i, d1, d2, w, d4, d5, d6)
  {
  }

  /** A text of the pattern's shape makes every stage of the matcher succeed. */
  lemma ShapeStages(s: string, i: nat, d1: nat, d2: nat, w: nat, d4: nat, d5: nat, d6: nat)
    requires StampShape(s, i, d1, d2, w, d4, d5, d6)
    ensures MatchStages(s, i, d1, d2, w, d4, d5, d6)
  {
    ShapeDateStages(s, i, d1, d2, w, d4, d5, d6);
    var i4 := i + d1 + d2 + 6 + w;
    var i5 := i4 + d4 + 1;
    FieldBeforeDot(s, i4, d4);
    FieldBeforeDot(s, i5, d5);
    FinalField(s, i5 + d5 + 1, d6);
  }

  /** The date stages of a text of the pattern's shape succeed. */
  lemma ShapeDateStages(s: string, i: nat, d1: nat, d2: nat, w: nat, d4: nat, d5: nat, d6: nat)
    requires StampShape(s, i, d1, d2, w, d4, d5, d6)
    ensures DateStages(s, i, d1, d2, w)
  {
    var i3 := i + d1 + d2 + 2;
    FieldBeforeDot(s, i, d1);
    FieldBeforeDot(s, i + d1 + 1, d2);
    SpaceRunIs(s, i3 + 4, w);
  }

  /** A field of one or two digits followed by '.' is captured whole. */
  lemma FieldBeforeDot(s: string, p: nat, n: nat)
    requires 1 <= n <= 2 && DigitsIn(s, p, n) && p + n < |s| && s[p + n] == '.'
    ensures DigitsBeforeDot(s, p) == Some(n)
  {
  }

  /** A final field of one or two digits, not followed by a further digit when it has
      one, is captured whole. */
  lemma FinalField(s: string, p: nat, n: nat)
    requires 1 <= n <= 2 && DigitsIn(s, p, n)
    requires n == 1 && p + 1 < |s| ==> !IsDigit(s[p + 1])
    ensures TrailingDigits(s, p) == Some(n)
  {
  }

  /** What the matcher returns once every stage of it has succeeded is what the pattern
      matches. */
  lemma StagesMatched(s: string, i: nat, d1: nat, d2: nat, w: nat, d4: nat, d5: nat, d6: nat)
    requires MatchStages(s, i, d1, d2, w, d4, d5, d6)
    ensures StampEnd(i, d1, d2, w, d4, d5, d6) <= |s|
    ensures MatchedAt(s, i, Match(StampEnd(i, d1, d2, w, d4, d5, d6), Groups(s, i, d1, d2, w, d4, d5, d6)))
  {
    StagesShape(s, i, d1, d2, w, d4, d5, d6);
  }

  /** What the time stage returns is what the pattern matches. */
  lemma FromHourMatched(s: string, i: nat, d1: nat, d2: nat, w: nat)
    requires DateStages(s, i, d1, d2, w)
    ensures forall m :: MatchFromHour(s, i, d1, d2, w) == Some(m) ==> MatchedAt(s, i, m)
  {
    var i4 := i + d1 + d2 + 6 + w;
    match DigitsBeforeDot(s, i4)
    case None => assert MatchFromHour(s, i, d1, d2, w) == None;
    case Some(d4) =>
      match DigitsBeforeDot(s, i4 + d4 + 1)
      case None => assert MatchFromHour(s, i, d1, d2, w) == None;
      case Some(d5) =>
        match TrailingDigits(s, i4 + d4 + d5 + 2)
        case None => assert MatchFromHour(s, i, d1, d2, w) == None;
        case Some(d6) => HourStagesMatched(s, i, d1, d2, w, d4, d5, d6);
  }

  /** Once every stage has succeeded, what the time stage returns is what the pattern
      matches. */
  lemma HourStagesMatched(s: string, i: nat, d1: nat, d2: nat, w: nat, d4: nat, d5: nat, d6: nat)
    requires MatchStages(s, i, d1, d2, w, d4, d5, d6)
    ensures forall m :: MatchFromHour(s, i, d1, d2, w) == Some(m) ==> MatchedAt(s, i, m)
  {
    MatchFromHourStages(s, i, d1, d2, w, d4, d5, d6);
    StagesMatched(s, i, d1, d2, w, d4, d5, d6);
  }

  /** What the matcher returns from the year on is what the pattern matches. */
  lemma FromYearMatched(s: string, i: nat, d1: nat, d2: nat)
    requires DigitsBeforeDot(s, i) == Some(d1) && DigitsBeforeDot(s, i + d1 + 1) == Some(d2)
    ensures MatchFromYear(s, i, d1, d2).Some? ==> MatchedAt(s, i, MatchFromYear(s, i, d1, d2).value)
  {
    if MatchFromYear(s, i, d1, d2).Some? {
      var w := SpaceRun(s, i + d1 + d2 + 6);
      FromHourMatched(s, i, d1, d2, w);
      assert MatchFromYear(s, i, d1, d2) == MatchFromHour(s, i, d1, d2, w);
    }
  }

  /** The maximal white-space run at p is exactly the block [p, p + n). */
  lemma SpaceRunIs(s: string, p: nat, n: nat)
    requires p + n <= |s|
    requires forall k :: p <= k < p + n ==> IsSpace(s[k])
    requires p + n < |s| ==> !IsSpace(s[p + n])
    ensures SpaceRun(s, p) == n
  {
  }

  /** The last stage: the time part of a match, once its fields are known. */
  lemma MatchFromHourStages(s: string, i: nat, d1: nat, d2: nat, w: nat, d4: nat, d5: nat, d6: nat)
    requires MatchStages(s, i, d1, d2, w, d4, d5, d6)
    ensures MatchFromHour(s, i, d1, d2, w) == Some(Match(StampEnd(i, d1, d2, w, d4, d5, d6), Groups(s, i, d1, d2, w, d4, d5, d6)))
  {
  }

  /** The middle stage: the year and the white-space run. */
  lemma MatchFromYearStages(s: string, i: nat, d1: nat, d2: nat, w: nat)
    requires DateStages(s, i, d1, d2, w)
    ensures MatchFromYear(s, i, d1, d2) == MatchFromHour(s, i, d1, d2, w)
  {
  }

  /** The first stage: the day and month fields. */
  lemma MatchAtDateStages(s: string, i: nat, d1: nat, d2: nat)
    requires DigitsBeforeDot(s, i) == Some(d1) && DigitsBeforeDot(s, i + d1 + 1) == Some(d2)
    ensures MatchAt(s, i) == MatchFromYear(s, i, d1, d2)
  {
    assert DigitsBeforeDot(s, i + d1 + 1).value == d2;
  }

  /** The matcher's result once every stage of it is known: it ends after the last group
      and captures the text of the six groups. */
  lemma MatchAtStages(s: string, i: nat, d1: nat, d2: nat, w: nat, d4: nat, d5: nat, d6: nat)
    requires MatchStages(s, i, d1, d2, w, d4, d5, d6)
    ensures MatchAt(s, i) == Some(Match(StampEnd(i, d1, d2, w, d4, d5, d6), Groups(s, i, d1, d2, w, d4, d5, d6)))
  {
    MatchAtDateStages(s, i, d1, d2);
    MatchFromYearStages(s, i, d1, d2, w);
    MatchFromHourStages(s, i, d1, d2, w, d4, d5, d6);
  }

  /** What the matcher returns is what the pattern matches. */
  lemma MatchAtSound(s: string, i: nat)
    ensures MatchAt(s, i).Some? ==> MatchedAt(s, i, MatchAt(s, i).value)
  {
    match DigitsBeforeDot(s, i)
    case None =>
    case Some(d1) =>
      match DigitsBeforeDot(s, i + d1 + 1)
      case None =>
      case Some(d2) =>
        MatchAtDateStages(s, i, d1, d2);
        FromYearMatched(s, i, d1, d2);
  }

  /** The matcher finds m at i exactly when m is what the pattern matches there: it
      misses no match and reports nothing else. */
  lemma MatchAtExactly(s: string, i: nat, m: Match)
    ensures MatchAt(s, i) == Some(m) <==> MatchedAt(s, i, m)
  {
    MatchAtSound(s, i);
    if MatchedAt(s, i, m) {
      MatchedIsFound(s, i, m);
    }
  }

  /** The matcher misses no match of the pattern. */
  lemma MatchedIsFound(s: string, i: nat, m: Match)
    requires MatchedAt(s, i, m)
    ensures MatchAt(s, i) == Some(m)
  {
    var g := m.groups;
    var d1, d2, d4, d5, d6 := |g[0]|, |g[1]|, |g[3]|, |g[4]|, |g[5]|;
    var w: nat := m.end - StampEnd(i, d1, d2, 0, d4, d5, d6);
    ShapeStages(s, i, d1, d2, w, d4, d5, d6);
    MatchAtStages(s, i, d1, d2, w, d4, d5, d6);
  }

  /** One or two ASCII digits: a day, month, hour, minute or second field. */
  predicate DigitField(x: string)
  {
    1 <= |x| <= 2 && forall k :: 0 <= k < |x| ==> IsDigit(x[k])
  }

  /** Exactly four ASCII digits: a year. */
  predicate YearField(x: string)
  {
    |x| == 4 && forall k :: 0 <= k < |x| ==> IsDigit(x[k])
  }

  /** A non-empty run of white space. */
  predicate Blank(x: string)
  {
    |x| >= 1 && forall k :: 0 <= k < |x| ==> IsSpace(x[k])
  }

  /** The fields of a dotted stamp: one- or two-digit day and month, a four-digit year, a
      run of white space, and one- or two-digit hour, minute and second. */
  predicate DottedFields(d: string, mo: string, y: string, w: string, h: string, mi: string, se: string)
  {
    DigitField(d) && DigitField(mo) && YearField(y) && Blank(w) && DigitField(h) && DigitField(mi) && DigitField(se)
  }

  /** The stamp d '.' mo '.' y w h '.' mi '.' se. */
  function Dotted(d: string, mo: string, y: string, w: string, h: string, mi: string, se: string): (p: string)
    ensures |p| == |d| + |mo| + |y| + |w| + |h| + |mi| + |se| + 4
  {
    d + "." + mo + "." + y + w + h + "." + mi + "." + se
  }

  /** A dotted stamp at the head of a text has the shape of the pattern there, with the
      fields' lengths, unless a one-digit seconds field runs into a further digit. */
  lemma DottedShape(d: string, mo: string, y: string, w: string, h: string, mi: string, se: string,
                    t: string)
    requires DottedFields(d, mo, y, w, h, mi, se)
    requires |se| == 1 && t != [] ==> !IsDigit(t[0])
    ensures StampShape(Dotted(d, mo, y, w, h, mi, se) + t, 0, |d|, |mo|, |w|, |h|, |mi|, |se|)
  {
    var p := Dotted(d, mo, y, w, h, mi, se);
    var s := p + t;
    var i2 := |d| + 1;
    var i3 := i2 + |mo| + 1;
    var i4 := i3 + 4 + |w|;
    var i5 := i4 + |h| + 1;
    var i6 := i5 + |mi| + 1;
    assert forall k :: 0 <= k < |d| ==> s[k] == d[k];
    assert forall k :: 0 <= k < |mo| ==> s[i2 + k] == mo[k];
    assert forall k :: 0 <= k < 4 ==> s[i3 + k] == y[k];
    assert forall k :: 0 <= k < |w| ==> s[i3 + 4 + k] == w[k];
    assert forall k :: 0 <= k < |h| ==> s[i4 + k] == h[k];
    assert forall k :: 0 <= k < |mi| ==> s[i5 + k] == mi[k];
    assert forall k :: 0 <= k < |se| ==> s[i6 + k] == se[k];
    if |se| == 1 && i6 + 1 < |s| {
      assert s[i6 + 1] == t[0];
    }
  }

  /** The capture groups of a dotted stamp at the head of a text are its six fields. */
  lemma DottedGroups(d: string, mo: string, y: string, w: string, h: string, mi: string, se: string,
                     t: string)
    requires |y| == 4
    ensures var s := Dotted(d, mo, y, w, h, mi, se) + t;
            Groups(s, 0, |d|, |mo|, |w|, |h|, |mi|, |se|) == [d, mo, y, h, mi, se]
  {
    var s := Dotted(d, mo, y, w, h, mi, se) + t;
    var i2 := |d| + 1;
    var i3 := i2 + |mo| + 1;
    var i4 := i3 + 4 + |w|;
    var i5 := i4 + |h| + 1;
    var i6 := i5 + |mi| + 1;
    assert s[0..|d|] == d;
    assert s[i2..i2 + |mo|] == mo;
    assert s[i3..i3 + 4] == y;
    assert s[i4..i4 + |h|] == h;
    assert s[i5..i5 + |mi|] == mi;
    assert s[i6..i6 + |se|] == se;
  }

  /** A dotted stamp followed by text that does not extend its seconds field: the stamp is
      replaced by its rewritten form and the scan goes on right after it. */
  lemma DottedStampThenText(d: string, mo: string, y: string, w: string,
                            h: string, mi: string, se: string, t: string)
    requires DottedFields(d, mo, y, w, h, mi, se)
    requires |se| == 1 && t != [] ==> !IsDigit(t[0])
    ensures var p := Dotted(d, mo, y, w, h, mi, se);
            Rewrite(p + t) == d + "." + mo + "." + y + " " + h + ":" + mi + ":" + se + SubFrom(p + t, |p|)
  {
    var p := Dotted(d, mo, y, w, h, mi, se);
    var s := p + t;
    DottedShape(d, mo, y, w, h, mi, se, t);
    DottedGroups(d, mo, y, w, h, mi, se, t);
    ShapeStages(s, 0, |d|, |mo|, |w|, |h|, |mi|, |se|);
    MatchAtStages(s, 0, |d|, |mo|, |w|, |h|, |mi|, |se|);
    assert StampEnd(0, |d|, |mo|, |w|, |h|, |mi|, |se|) == |p|;
    SubFromMatch(s, 0, Match(|p|, [d, mo, y, h, mi, se]));
  }

  /** Where a match starts, the scan writes its replacement and goes on after it. */
  lemma SubFromMatch(s: string, i: nat, m: Match)
    requires i < |s| && MatchAt(s, i) == Some(m)
    ensures SubFrom(s, i) == Replacement(m.groups) + SubFrom(s, m.end)
  {
  }

  /** A cell "d.m.yyyy<blanks>h.m.s" with dotted time is rewritten to "d.m.yyyy h:m:s":
      the date is kept, the blank run becomes one space and the time dots become colons. */
  lemma DottedTimestampRewritten(d: string, mo: string, y: string, w: string,
                                 h: string, mi: string, se: string)
    requires DigitField(d) && DigitField(mo) && YearField(y) && Blank(w)
    requires DigitField(h) && DigitField(mi) && DigitField(se)
    ensures Rewrite(d + "." + mo + "." + y + w + h + "." + mi + "." + se)
         == d + "." + mo + "." + y + " " + h + ":" + mi + ":" + se
  {
    var p := Dotted(d, mo, y, w, h, mi, se);
    DottedStampThenText(d, mo, y, w, h, mi, se, []);
    assert p + [] == p;
  }

  /** No '.' occurs anywhere after a white-space character. */
  predicate NoDotAfterSpace(s: string)
  {
    forall j, k :: 0 <= j < k < |s| && IsSpace(s[j]) ==> s[k] != '.'
  }

  /** Every match holds a white-space character with a '.' after it (the blank run and
      the dot after the hour), so a cell without that shape has no match anywhere. */
  lemma NoMatchWithoutDotAfterSpace(s: string, i: nat)
    requires NoDotAfterSpace(s)
    ensures MatchAt(s, i) == None
  {
  }

  /** Where nothing matches, the scan copies one character and moves on. */
  lemma SubFromCopies(s: string, i: nat)
    requires i < |s| && MatchAt(s, i) == None
    ensures SubFrom(s, i) == [s[i]] + SubFrom(s, i + 1)
  {
  }

  /** Where no match starts at or after i, the scan copies the rest of the cell. */
  lemma {:induction false} SubFromCopiesRest(s: string, i: nat)
    requires i <= |s| && forall k :: i <= k < |s| ==> MatchAt(s, k).None?
    ensures SubFrom(s, i) == s[i..]
    decreases |s| - i
  {
    if i < |s| {
      SubFromCopies(s, i);
      SubFromCopiesRest(s, i + 1);
      assert s[i..] == [s[i]] + s[i + 1..];
    }
  }

  /** Without a match the scan copies the rest of the cell unchanged. */
  lemma SubFromUnchanged(s: string, i: nat)
    requires NoDotAfterSpace(s) && i <= |s|
    ensures SubFrom(s, i) == s[i..]
  {
    forall k | i <= k < |s|
      ensures MatchAt(s, k).None?
    {
      NoMatchWithoutDotAfterSpace(s, k);
    }
    SubFromCopiesRest(s, i);
  }

  /** A cell whose date part holds no white space and whose time part no '.', such as
      "15.11.2024 0:00:00", is left exactly as it is. */
  lemma ColonTimestampUnchanged(date: string, w: string, time: string)
    requires forall k :: 0 <= k < |date| ==> !IsSpace(date[k])
    requires forall k :: 0 <= k < |w| ==> IsSpace(w[k])
    requires forall k :: 0 <= k < |time| ==> time[k] != '.'
    ensures Rewrite(date + w + time) == date + w + time
  {
    var s := date + w + time;
    forall j, k | 0 <= j < k < |s| && IsSpace(s[j])
      ensures s[k] != '.'
    {
      assert j >= |date|;
    }
    SubFromUnchanged(s, 0);
  }
}
